=== FILE: README.md ===
# GLAO error budget: a Dafny model of the ASM fitting core

This project models the core of the GLAO error-budget crate. The crate fits
dome-seeing optical path difference (OPD) maps with the Karhunen-Loeve modes of
the seven segments of an adaptive secondary mirror (ASM). The model covers:

- the single segment (`Segment`): the pupil-mask gather and scatters, the
  input-length dispatch, the normalised projection, the pseudo-inverse least
  squares and the modal reconstruction `shape`;
- the seven-variant `ASM` wrapper;
- the seven-segment assembly (`impl ASMS for Vec<ASM>`): the union mask, the
  area ratios, `mirror_shape`, `mirror_shape_sub`, the `&opd - &asms` residual,
  and the assembly-wide fits;
- the NaN-aware statistics of an OPD map;
- the record statistics of `OpdStats for Vec<OpdRecord>`.

Grid samples are `Sample = Num(real) | NaN`. Arithmetic on samples propagates
NaN as IEEE-754 does, and values are exact reals. Masks are `seq<bool>`. Every
`zip` in the Rust code stops at the shorter side, and the model keeps that
truncation everywhere it occurs (gathers, scatters, inner products, the
union-mask fold and the record folds). `sqrt` and `sqrt().recip()` are function
parameters (`sqrt`, `invSqrt`) and are never given a definition.

Files and modules:

| file | module | contents |
|---|---|---|
| wrappers.dfy | Wrappers | `GlaoError`, `Result`, `Outcome`, `Option` |
| samples.dfy | Samples | `Sample`, sums, inner products, division by a count |
| masking.dfy | Masking | `masked`, `masked_replace`, `masked_sub` and their round trips |
| chunks.dfy | Chunking | `chunks(n)` and concatenation |
| segment.dfy | Segments | `Segment`, the fits, `shape` |
| fitting.dfy | Fitting | what the fits and `shape` mean together: matrix-product view, exact recovery |
| asm.dfy | AsmVariants | `ASM`, `tag`, the id-to-variant choice of `from_bin` |
| opd.dfy | Opds | `OPD`, `no_nan_opd`, `mean`, `var`, `std`, `rms` |
| painting.dfy | Painting | ordered scatter of a stack of layers (replace or subtract) |
| assembly.dfy | Assembly | `impl ASMS for Vec<ASM>` and `Sub`/`SubAssign` for `OPD` |
| records.dfy | Records | `OpdRecord` and `OpdStats` |

## Behaviour worth knowing

- The doc comments of `masked_replace` and `masked_sub` (src/asm.rs:105-108
  and src/asm.rs:120-123) say that the old data is as long as the mask and
  the new data as long as the masked area. Nothing checks this: `zip`
  silently truncates. `Masking.Scatter` writes while both the mask positions
  and the values last, and leaves the rest unchanged.
- `rms` is `sqrt(Σx²)` over the non-NaN samples, with no division by their
  count. An all-NaN map therefore gives `sqrt(0)`, not NaN (`Opds.Rms`).
- `area_ratios` divides each `n_point` by `Σ n_point`. With no segments the
  result is simply empty. A zero total with segments present needs every
  `n_point` to be 0 (fewer modes values than `n_mode`); every ratio is then
  0/0 = NaN (`Assembly.AreaRatios`). With at least one valid segment the
  total is positive and the ratios sum to 1 (`Assembly.RatiosSumToOne`).
- `&opd - &asms` clones the field and changes its samples through
  `mut_map` (src/lib.rs:254 and src/lib.rs:191). Neither `Clone` nor
  `mut_map` is defined in src/opd.rs. The model assumes that `Clone` copies
  `map`, `max` and `min`, and that `mut_map` exposes only `map`. Under that
  assumption the stored `max` and `min` come through unchanged and are not
  recomputed for the residual (`Assembly.Residual`).
- `Segment::new` documents its modes as normalised to `|m| = 1`
  (src/asm.rs:72), but `project` divides by `sqrt(Σm² · n_point)`
  (src/asm.rs:146-148). For unit-norm orthogonal modes the projection of
  the shape of `c` is therefore `c_i / sqrt(n_point)`, not `c_i`
  (`Fitting.UnitNormProjects`). The round trip `project(shape(c)) = c`
  holds when `Σm² = n_point` (unit mean square), which is the hypothesis of
  `Fitting.ProjectInvertsShape`.

## Model

| member | source | states |
|---|---|---|
| Samples.Quotient | src/opd.rs:52-55 | a total divided by a count is NaN exactly when the count is zero (the total is then the empty sum); otherwise it is the number that, times the count, gives back the total, and it is non-negative when the total is |
| Samples.SumSq | src/opd.rs:67-69 | a sum of squares is never negative |
| Samples.SampleDotNaN | src/asm.rs:149-152 | the folded inner product `fold(0, a + x*y)` is NaN exactly when one of the samples it reads (within the common prefix) is NaN; NaN is never turned into zero |
| Samples.SampleDotNums | src/asm.rs:149-152 | on NaN-free samples the folded inner product is the real inner product |
| Samples.DotSelf | src/asm.rs:146 | a mode's inner product with itself is its sum of squares Σm² |
| Masking.Masked | src/asm.rs:97-104 | `masked` keeps exactly the samples at selected positions of the common prefix, in order: its length is the number of selected positions before the shorter of mask and data, and the sample at selected position `i` lands at rank `i` |
| Masking.MaskedLength | src/asm.rs:92-104 | for a grid at least as long as the mask, `masked` returns `n_in_mask` samples |
| Masking.Scatter | src/asm.rs:109-134 | unselected positions keep their value; the k-th selected position becomes `f(old, new[k])` when `new` has a k-th value and keeps its value otherwise; the length never changes |
| Masking.MaskedReplace | src/asm.rs:109-119 | `masked_replace` leaves unselected positions unchanged and writes `new[k]` at the k-th selected position while `new` lasts |
| Masking.MaskedSub | src/asm.rs:124-134 | `masked_sub` leaves unselected positions unchanged and takes `new[k]` off the k-th selected position while `new` lasts |
| Masking.GatherScatter | src/asm.rs:97-134 | gathering after a scatter of a vector of full masked length gives the element-wise combination of the gathered old samples with the new ones |
| Masking.ReplaceThenGather | src/asm.rs:97-119 | round trip: `masked(masked_replace(old, new)) == new` when `new` has the masked length |
| Masking.SubThenGather | src/asm.rs:97-134 | `masked(masked_sub(old, new)) == masked(old) - new`, element by element |
| Masking.GatherThenReplace | src/asm.rs:97-119 | the other round trip: writing back what `masked` gathered leaves the grid unchanged |
| Chunking.Chunks | src/asm.rs:142-145 | `chunks(n)` gives non-empty pieces of at most `n` items, and none exactly for empty input |
| Chunking.FlattenChunks | src/lib.rs:216-221 | concatenating the chunks gives back the input: chunking loses and reorders nothing |
| Chunking.ChunksExact | src/asm.rs:142-145 | when `n` divides the length, there are exactly `length / n` full pieces |
| Chunking.ChunkAt | src/asm.rs:142-145 | piece `i` is the slice `[i·n, (i+1)·n)` of the input |
| Chunking.FlattenAt | src/lib.rs:216-221 | concatenating pieces of width `w` puts entry `k` of piece `i` at position `i·w + k` |
| Segments.ModesExact | src/asm.rs:142-145 | mode `i` of a valid segment is the i-th block of `n_point` samples of `modes` |
| Segments.NInMaskCounts | src/asm.rs:92-95 | `n_in_mask` is the length of what a gather through the mask keeps from any field at least as long as the mask |
| Segments.NPointCounts | src/asm.rs:88-91 | `n_point` is `modes.len() / n_mode` (integer division bracketed from both sides), and exact for a valid segment |
| Segments.NewSegment | src/asm.rs:73-87 | `Segment::new` stores the modes, mode count, mask and pseudo-inverse as given, has no coefficients, and is valid |
| Segments.FitInput | src/asm.rs:170-177 | a full-grid input is gathered through the mask; otherwise an input of length `n_point` is taken as is; any other length is a `Projection` error |
| Segments.ProjectOut | src/asm.rs:181-213 | `project_out` fails with `Projection` exactly when the length dispatch fails; otherwise it returns one normalised inner product per mode |
| Segments.Project | src/asm.rs:136-169 | `project` fails exactly when `project_out` fails, and then leaves the segment unchanged; on success it stores exactly what `project_out` returns and changes nothing else |
| Segments.LeastSquareOut | src/asm.rs:214-224 | `least_square_out` fails with `Projection` exactly when the dispatch fails; otherwise it returns `modes_pinv · samples` |
| Segments.LeastSquare | src/asm.rs:170-180 | `least_square` stores exactly what `least_square_out` returns, and leaves the segment unchanged on error |
| Segments.Shape | src/asm.rs:228-250 | `shape` always has `n_point` samples |
| Fitting.LinCombAt | src/asm.rs:237-239 | sample `p` of the fold `w += m·c` is row `p` of the mode matrix against the coefficients |
| Fitting.ShapeIsMatrixProduct | src/asm.rs:241-249 | `shape(None)` is the mode matrix times the coefficient vector, over the first `min(n_mode, coefficients.len())` modes |
| Fitting.ShapeOfSelection | src/asm.rs:230-240 | `shape(Some(idx))` uses only the listed modes and coefficients |
| Fitting.ShapeAllIndices | src/asm.rs:228-250 | listing the modes `0..k` that `zip` pairs with coefficients gives the same shape as `None` |
| Fitting.FreshShapeIsZero | src/asm.rs:84 | a segment as built, with no coefficients, reconstructs to the zero vector |
| Fitting.LinCombToNums | src/asm.rs:237-239 | with numeric coefficients the reconstruction is NaN-free and equals the plain linear combination |
| Fitting.DotCombination | src/asm.rs:237-239 | the inner product with Σ c_j·m_j is Σ c_j·⟨p, m_j⟩ |
| Fitting.DotLinCombTo | src/asm.rs:241-249 | applying a row `p` to the reconstruction from coefficients `c` gives Σ c_j·⟨p, m_j⟩ |
| Fitting.LeastSquareInvertsShape | src/asm.rs:170-180 | when `modes_pinv` is a left inverse of the mode matrix, least squares on the shape of coefficients `c` gives back `c` |
| Fitting.OrthogonalDot | src/asm.rs:241-249 | when mode `i` is orthogonal to every other mode, ⟨m_i, shape⟩ = c_i·⟨m_i, m_i⟩ |
| Fitting.ProjectOne | src/asm.rs:145-153 | with orthogonal modes and a factor that is the reciprocal of ⟨m_i, m_i⟩, the scaled projection of the shape on mode `i` is `c_i` |
| Fitting.ProjectInvertsShape | src/asm.rs:136-169 | the projection of the shape of coefficients `c` gives back `c` when the modes are orthogonal and each normaliser is the reciprocal of its mode's square sum |
| Fitting.ProjectAt | src/asm.rs:145-153 | under the same hypotheses, coefficient `i` of that projection is `c_i` |
| Fitting.UnitNormProjects | src/asm.rs:145-153 | for a unit-norm mode (Σm² = 1, as `Segment::new` documents at src/asm.rs:72) orthogonal to the others, coefficient `i` of the projection of the shape of `c` is `c_i` scaled by `invSqrt(n_point)`, i.e. `c_i/sqrt(n_point)` and not `c_i` |
| Fitting.UnitMeanSquareNormalises | src/asm.rs:146-148 | a mode with Σm² = n_point has normaliser `1/Σm²` whenever `invSqrt(n_point²) = 1/n_point`, so unit-mean-square modes meet the normalisation hypothesis |
| Fitting.ScatteredIsFitInput | src/asm.rs:170-177 | a segment-local vector scattered into a full grid is exactly what the length dispatch reads back |
| Fitting.LeastSquareOutRecovers | src/asm.rs:214-224 | reconstruct with `c`, write the shape into any full grid, fit by least squares: `Ok(c)` comes back |
| Fitting.ProjectOutRecovers | src/asm.rs:181-213 | the same round trip through the grid for `project_out` on orthogonal, normalised modes |
| AsmVariants.Sid | src/asm.rs:255-263 | each variant carries a segment id between 1 and 7 |
| AsmVariants.Tag | src/asm.rs:265-277 | `tag` is `M2S<sid>` |
| AsmVariants.FromSid | src/asm.rs:278-290 | ids 1 to 7 give the variant with that id around the loaded segment; every other id is a `Bin2Asm` error |
| AsmVariants.WithSegment | src/asm.rs:292-304 | a mutating forward keeps the variant and replaces only the segment |
| AsmVariants.SidDetermines | src/asm.rs:255-263 | a variant is determined by its id and its segment |
| AsmVariants.FromSidRoundTrip | src/asm.rs:265-290 | `from_bin` inverts the (id, segment) view of a variant, and the tag of the result names the file it was loaded from |
| AsmVariants.TagInjective | src/asm.rs:265-277 | two variants have the same tag exactly when they have the same id |
| Opds.NoNan | src/opd.rs:47-50 | the filtered list never has more values than the map has samples |
| Opds.NoNanPositions | src/opd.rs:47-50 | `no_nan_opd` yields exactly the non-NaN samples in order: one value per non-NaN sample, the sample at `i` at the number of non-NaN samples before it |
| Opds.NoNanEmpty | src/opd.rs:47-50 | the filtered list is empty exactly when every sample is NaN |
| Opds.NoNanAppend | src/opd.rs:47-50 | filtering distributes over concatenation |
| Opds.DropNaN | src/opd.rs:47-50 | a NaN sample anywhere can be removed without changing the filtered values |
| Opds.Mean | src/opd.rs:51-55 | `mean` is NaN exactly when every sample is NaN; otherwise mean × count equals the sum of the non-NaN samples |
| Opds.Var | src/opd.rs:56-61 | `var` is NaN exactly when `mean` is; otherwise it is non-negative and, times the number N of non-NaN samples, gives Σ(x−μ)²: the population variance, divided by N and not N−1 |
| Opds.Std | src/opd.rs:62-65 | `std` is NaN exactly when `var` is, and otherwise `sqrt(var)` |
| Opds.Rms | src/opd.rs:66-69 | `rms` is always a number, even on an all-NaN map |
| Opds.FlatField | src/opd.rs:51-61 | a flat field surrounded by NaN samples has its level as mean and zero variance |
| Opds.FlatRms | src/opd.rs:66-69 | a flat field of `n` samples at level `k` has `rms` equal to sqrt(n·k²), with no division by `n`, whatever NaN samples surround it |
| Opds.StatisticsIgnoreNaN | src/opd.rs:47-69 | inserting a NaN sample changes none of `mean`, `var` and `rms` |
| Painting.LastWriter | src/lib.rs:184-187 | the last writer of a position is a writer, no later layer writes the position, and there is none exactly when no layer writes it |
| Painting.PaintTo | src/lib.rs:183-187 | after the ordered `masked_replace` scatters, each position shows its base value if no layer wrote it, and otherwise the value of the last layer that did |
| Painting.SubTo | src/lib.rs:197-200 | after the ordered `masked_sub` scatters, each position is its base value less the samples of every layer that wrote it, in order |
| Painting.DeductedNaN | src/lib.rs:190-200 | a NaN position stays NaN through the subtractions |
| Painting.SubtractPainted | src/lib.rs:182-200 | where a single layer writes, subtracting the layers equals subtracting what painting them shows |
| Assembly.UnionTo | src/lib.rs:174-180 | the fold over the first `k` segments marks exactly the positions one of them selects |
| Assembly.Union | src/lib.rs:174-181 | `mask` has 512·512 entries, and entry `i` is true exactly when some segment's mask selects `i`; with no segments it is all false |
| Assembly.AreaRatios | src/lib.rs:228-235 | one ratio per segment, `n_point / Σ n_point`; every ratio is NaN exactly when the total is zero |
| Assembly.RatiosSumToOne | src/lib.rs:228-235 | with a positive total, every ratio lies in [0, 1] and the ratios sum to 1 |
| Assembly.LayerWrites | src/lib.rs:184-187 | a segment writes position `i` exactly when its mask selects `i` and its shape still has a sample for it |
| Assembly.MirrorShape | src/lib.rs:182-189 | 512·512 samples; NaN where no segment writes; elsewhere the shape sample of the last segment that writes the position (`Assembly.LayerWrites`) |
| Assembly.UncoveredIsNaN | src/lib.rs:182-189 | positions outside the union mask are NaN in the mirror shape |
| Assembly.Blanked | src/lib.rs:191-196 | the first pass of `mirror_shape_sub` sets NaN outside the union mask and leaves every other sample unchanged |
| Assembly.MirrorShapeSub | src/lib.rs:190-201 | `mirror_shape_sub` is the blanked field with every segment's shape subtracted inside its own mask, in order |
| Assembly.SubBlanksUncovered | src/lib.rs:190-201 | every position outside the union mask is NaN after `mirror_shape_sub` |
| Assembly.SubIsDifference | src/lib.rs:182-201 | for segments on the grid with disjoint masks, `mirror_shape_sub` of a full grid is the field minus `mirror_shape`, at every position |
| Assembly.Residual | src/lib.rs:238-257 | `&opd - &asms` keeps the length of the field; it keeps the stored extrema too, assuming `Clone` copies them and `mut_map` touches only the samples |
| Assembly.ResidualIsDifference | src/lib.rs:238-257 | the residual is the field minus the mirror shape of all modes (`None`) |
| Assembly.ProjectAll | src/lib.rs:202-208 | assembly `project` fails exactly when some segment rejects the field's length; otherwise every segment keeps its variant and holds exactly its `project_out` coefficients |
| Assembly.LeastSquareAll | src/lib.rs:209-215 | the same for `least_square` and `least_square_out` |
| Assembly.ProjectOutAll | src/lib.rs:216-221 | the concatenation is as long as all segments' modes together, and the slice starting at the modes of the segments before `k` is exactly segment `k`'s `project_out` result, in segment order |
| Assembly.LeastSquareOutAll | src/lib.rs:222-227 | the same for `least_square_out` |
| Assembly.ProjectOutAllAt | src/lib.rs:216-221 | with `m` modes per segment, the concatenation has `7·m` entries and coefficient `j` of segment `k` sits at `k·m + j` |
| Assembly.LeastSquareOutAllAt | src/lib.rs:222-227 | the same for `least_square_out` |
| Assembly.FromBins | src/lib.rs:168-173 | once the seven segments are loaded, `from_bins` gives seven variants, the k-th with id `k + 1` around the k-th segment |
| Records.TotalsAreColumnSums | src/lib.rs:81-92 | entry `i` of the fold is the sum of column `i` over the records |
| Records.Means | src/lib.rs:81-92 | every total divided by the number of records, NaN (0/0) exactly when there are none |
| Records.MeansNonNegative | src/lib.rs:94-106 | averages of non-negative rows are non-negative |
| Records.MeansOfConstantColumn | src/lib.rs:81-92 | a column equal to `c` in every record averages to `c` |
| Records.MeanVar | src/lib.rs:78-80 | `mean_var` is NaN exactly for an empty batch; otherwise mean × count is the sum of the variances |
| Records.MeanVarOfEqual | src/lib.rs:78-80 | a batch of equal variances averages to that variance |
| Records.MeanStd | src/lib.rs:60-62 | `mean_std` is NaN exactly for an empty batch, and otherwise `sqrt(mean_var)` |
| Records.Roots | src/lib.rs:63-74 | the `*_rss` vectors take the square root entry by entry and keep NaN |
| Records.MeanSegmentSumSquare | src/lib.rs:81-92 | seven entries, entry `i` the average over the batch of the records' `segment_sum_square[i]` |
| Records.MeanModalCoefsSquare | src/lib.rs:94-106 | 3500 entries, entry `i` the average squared coefficient `i`; never negative |
| Records.RunningSumsArePrefixSums | src/lib.rs:116-121 | the in-place running fold leaves at position `k` the sum of the first `k + 1` squares |
| Records.Residuals | src/lib.rs:115-126 | for one segment, entry `k` is `abs(sss − Σ_{j≤k} b_j²)` |
| Records.ResidualPieces | src/lib.rs:111-127 | the segments are paired with their sums of squares until either runs out |
| Records.ResidualRowAt | src/lib.rs:107-128 | for a record with 3500 coefficients and seven sums, entry `s·500 + k` of its residual row is `abs(sss_s − Σ_{j≤k} b_{s,j}²)` |
| Records.ResidualRowNonNegative | src/lib.rs:124-126 | every residual is non-negative |
| Records.MeanSegmentResidualSumSquare | src/lib.rs:107-136 | 3500 entries, entry `i` the average of the records' residual entry `i`; never negative |

## Left out

- File and format I/O: `KarhunenLoeve::from_bin`, the file read in
  `ASM::from_bin`, `OPD::from_npz`, and bincode/serde. `from_bin` is modelled
  only as the id-to-variant choice once the segment is loaded
  (`AsmVariants.FromSid`, `Assembly.FromBins`). Load errors cannot arise there.
- The pseudo-inverse computation (the SVD in `Segment::new` and
  `From<KarhunenLoeve>`). `modes_pinv` is a given `n_mode × n_point` matrix,
  and only its product with the samples is modelled. The `expect` on a failed
  SVD is not modelled.
- `sqrt` and `sqrt().recip()` are parameters. The projection round trip
  takes as hypothesis that each normaliser is the reciprocal of its mode's
  square sum (`Fitting.Normalised`). `Fitting.UnitMeanSquareNormalises`
  derives it for unit-mean-square modes from `invSqrt(n²) = 1/n`
  (`Fitting.InverseRootAtSquare`). Modes of unit norm, as documented, do not
  meet that hypothesis when `n_point > 1`; what the projection returns for
  them is stated by `Fitting.UnitNormProjects`.
- IEEE-754 rounding, infinities and overflow. Values are exact reals with NaN
  as a separate constructor.
- rayon parallelism. `par_iter`, `par_iter_mut` and `into_par_iter` are
  modelled as sequential maps that collect in order.
- Assembly.ProjectAll: when a segment rejects the field, the parallel
  `par_iter_mut` may already have stored new coefficients in the other
  segments before the error is returned. The model returns only the error and
  says nothing about those partial updates.
- Assembly.LeastSquareAll: the same partial updates of `least_square` on an
  error are not modelled; the model returns only the error.
- Panics are preconditions, not modelled error paths:
  - `project_out(..).unwrap()` in the assembly `project_out` and
    `least_square_out` (`AllAccept`);
  - an out-of-range mode index in `shape` (`IndicesIn`);
  - a pseudo-inverse product of the wrong size (`MaskFits`);
  - `n_mode = 0` and `chunks(0)` (`Valid`);
  - the size assertion of `from_column_slice` in `From<KarhunenLoeve>` and
    `Segment::new` (src/asm.rs:50-54 and src/asm.rs:74-75), which needs
    `|modes| = n_mode · n_point`, and a pseudo-inverse of `n_mode` rows of
    `n_point` samples (`Valid`). `Segment`'s fields are public
    (src/asm.rs:38-47), so a segment can also be built by struct literal
    with other shapes; such segments are not modelled.
- `OPD::new`, `mut_map` and `Clone` are not in the modelled files. The mirror
  shape is returned as its sample grid, and `mirror_shape_sub` works on the
  sample grid. `map`, `max` and `min` are the fields of `Opds.Opd`.
- Assembly.Residual: the copied `max` and `min` rest on an assumption. It
  assumes that `Clone` of `OPD` copies all three fields and that `mut_map`
  changes only `map`. Neither is defined in src/opd.rs.
- Opds.Var: the identity between the variance and the mean of squares minus
  the squared mean (E[x²] − μ²) is not stated.
- Segments.Shape: its own contract gives only the length. The value is stated
  by `Fitting.ShapeIsMatrixProduct` and `Fitting.ShapeOfSelection`, because
  the index algebra of the fold is too costly inside the function's contract.
- Opds.NoNan: its own contract gives only a length bound. The exact content
  and order are stated by `Opds.NoNanPositions`.
- Opds.Rms: its own contract says only that the result is a number. Its value
  on flat fields is stated by `Opds.FlatRms`, and its insensitivity to NaN by
  `Opds.StatisticsIgnoreNaN`.
- NaN entries inside an `OpdRecord` are not modelled. Record fields are
  `seq<real>`, and the record statistics are NaN only for an empty batch.
- `OpdRecord.file` and `ratios` are carried but read by no statistic.
- Records.MeanStd and Records.Roots: the square root of NaN is taken to be NaN,
  and `sqrt` is applied only to numbers.
- Binaries, examples, tests, `src/main.rs` and `gerpy/export.py`:
  orchestration, plotting and data export outside the core.

=== FILE: asm.dfy ===
/** The seven-variant `ASM` wrapper (src/asm.rs): one adaptive-secondary
    segment tagged with its position on the mirror. Every per-segment method
    of `ASM` forwards to the wrapped segment, which is the shared `segment`
    destructor here. */
module AsmVariants {
  import opened Wrappers
  import opened Segments

  /** Number of segments of the mirror */
  const SegmentCount: nat := 7

  datatype Asm =
    | S1(segment: Segment)
    | S2(segment: Segment)
    | S3(segment: Segment)
    | S4(segment: Segment)
    | S5(segment: Segment)
    | S6(segment: Segment)
    | S7(segment: Segment)

  /** The segment id of a variant, 1 for `S1` through 7 for `S7` */
  function Sid(a: Asm): (r: nat)
    ensures 1 <= r <= SegmentCount
  {
    match a
    case S1(_) => 1
    case S2(_) => 2
    case S3(_) => 3
    case S4(_) => 4
    case S5(_) => 5
    case S6(_) => 6
    case S7(_) => 7
  }

  /** The name `M2S<sid>` under which segment `sid`'s modes are stored */
  function SegmentName(sid: nat): string
    requires 1 <= sid <= 9
  {
    "M2S" + [('0' as int + sid) as char]
  }

  /** `tag` */
  function Tag(a: Asm): (r: string)
    ensures r == SegmentName(Sid(a))
  {
    match a
    case S1(_) => "M2S1"
    case S2(_) => "M2S2"
    case S3(_) => "M2S3"
    case S4(_) => "M2S4"
    case S5(_) => "M2S5"
    case S6(_) => "M2S6"
    case S7(_) => "M2S7"
  }

  /** The variant choice of `from_bin`, once the segment has been loaded:
      ids 1 to 7 select `S1` to `S7`, any other id is a `Bin2Asm` error. */
  function FromSid(sid: nat, seg: Segment): (r: Result<Asm>)
    ensures r.Err? <==> !(1 <= sid <= SegmentCount)
    ensures r.Err? ==> r.error == Bin2Asm
    ensures r.Ok? ==> r.value.segment == seg && Sid(r.value) == sid
  {
    if sid == 1 then Ok(S1(seg))
    else if sid == 2 then Ok(S2(seg))
    else if sid == 3 then Ok(S3(seg))
    else if sid == 4 then Ok(S4(seg))
    else if sid == 5 then Ok(S5(seg))
    else if sid == 6 then Ok(S6(seg))
    else if sid == 7 then Ok(S7(seg))
    else Err(Bin2Asm)
  }

  /** The same variant around another segment: what the mutating methods
      (`project`, `least_square`) leave behind. */
  function WithSegment(a: Asm, seg: Segment): (r: Asm)
    ensures Sid(r) == Sid(a) && r.segment == seg
  {
    match a
    case S1(_) => S1(seg)
    case S2(_) => S2(seg)
    case S3(_) => S3(seg)
    case S4(_) => S4(seg)
    case S5(_) => S5(seg)
    case S6(_) => S6(seg)
    case S7(_) => S7(seg)
  }

  /** A variant is determined by its id and its segment. */
  lemma SidDetermines(a: Asm, b: Asm)
    requires Sid(a) == Sid(b) && a.segment == b.segment
    ensures a == b
  {
  }

  /** `from_bin` inverts the (id, segment) view of a variant, and the tag of
      what it builds names the file it was loaded from. */
  lemma FromSidRoundTrip(a: Asm)
    ensures FromSid(Sid(a), a.segment) == Ok(a)
    ensures Tag(FromSid(Sid(a), a.segment).value) == SegmentName(Sid(a))
  {
  }

  /** Different segments carry different tags. */
  lemma TagInjective(a: Asm, b: Asm)
    ensures Tag(a) == Tag(b) <==> Sid(a) == Sid(b)
  {
    if Tag(a) == Tag(b) {
      assert Tag(a)[3] == Tag(b)[3];
    }
  }
}

=== FILE: assembly.dfy ===
/** The seven-segment adaptive secondary (`impl ASMS for Vec<ASM>` in
    src/lib.rs): the union pupil mask, the area ratios, the mirror shape on
    the full grid, its subtraction from a field, and the fits of every
    segment at once. Segments are visited in vector order; the parallel
    iterators of the Rust code collect in that order too. */
module Assembly {
  import opened Wrappers
  import opened Samples
  import opened Masking
  import opened Chunking
  import opened Segments
  import opened AsmVariants
  import opened Opds
  import opened Painting

  predicate AllValid(asms: seq<Asm>) {
    forall k :: 0 <= k < |asms| ==> asms[k].segment.Valid()
  }

  /** Some segment mask selects grid position `i`. */
  predicate Covered(asms: seq<Asm>, i: nat) {
    exists k :: 0 <= k < |asms| && Selects(asms[k].segment.mask, i)
  }

  // ----- union mask -----

  /** `acc[i] || mask[i]` over the positions the two share */
  function OrInto(acc: seq<bool>, mask: seq<bool>): (r: seq<bool>)
    ensures |r| == |acc|
    ensures forall i :: 0 <= i < |acc| ==> r[i] == (acc[i] || Selects(mask, i))
  {
    seq(|acc|, i requires 0 <= i < |acc| => acc[i] || Selects(mask, i))
  }

  /** The union of the first `k` masks, folded from an all-false grid */
  function UnionTo(asms: seq<Asm>, k: nat): (r: seq<bool>)
    requires k <= |asms|
    ensures |r| == GridSize
    ensures forall i :: 0 <= i < GridSize ==>
      (r[i] <==> exists j :: 0 <= j < k && Selects(asms[j].segment.mask, i))
  {
    if k == 0 then seq(GridSize, _ => false)
    else
      var prev := UnionTo(asms, k - 1);
      var r := OrInto(prev, asms[k - 1].segment.mask);
      assert forall i :: 0 <= i < GridSize ==>
        (r[i] <==> (exists j :: 0 <= j < k - 1 && Selects(asms[j].segment.mask, i))
                   || Selects(asms[k - 1].segment.mask, i));
      r
  }

  /** `mask`: the grid positions some segment covers. Mask entries past the
      grid are ignored; with no segments nothing is covered. */
  function Union(asms: seq<Asm>): (r: seq<bool>)
    ensures |r| == GridSize
    ensures forall i :: 0 <= i < GridSize ==> (r[i] <==> Covered(asms, i))
  {
    UnionTo(asms, |asms|)
  }

  // ----- area ratios -----

  function PointCounts(asms: seq<Asm>): (r: seq<nat>)
    ensures |r| == |asms|
    ensures forall k :: 0 <= k < |asms| ==> r[k] == asms[k].segment.NPoint()
  {
    seq(|asms|, k requires 0 <= k < |asms| => asms[k].segment.NPoint())
  }

  /** Σ ns, folded left to right */
  function NatSum(ns: seq<nat>): nat {
    if |ns| == 0 then 0 else NatSum(ns[..|ns| - 1]) + ns[|ns| - 1]
  }

  lemma {:induction false} NatSumBounds(ns: seq<nat>)
    ensures forall k :: 0 <= k < |ns| ==> ns[k] <= NatSum(ns)
  {
    if |ns| > 0 {
      var n := |ns| - 1;
      NatSumBounds(ns[..n]);
      assert forall k :: 0 <= k < n ==> ns[..n][k] == ns[k];
    }
  }

  /** `area_ratios`: each segment's share of the total number of mode
      samples. With no samples at all every ratio is 0/0, i.e. NaN. */
  function AreaRatios(asms: seq<Asm>): (r: seq<Sample>)
    ensures |r| == |asms|
    ensures forall k :: 0 <= k < |asms| ==> (r[k].NaN? <==> NatSum(PointCounts(asms)) == 0)
    ensures NatSum(PointCounts(asms)) > 0 ==> forall k :: 0 <= k < |asms| ==>
      r[k] == Num(asms[k].segment.NPoint() as real / NatSum(PointCounts(asms)) as real)
  {
    var ns := PointCounts(asms);
    var total := NatSum(ns);
    NatSumBounds(ns);
    seq(|ns|, k requires 0 <= k < |ns| => Quotient(ns[k] as real, total))
  }

  /** The ratio values */
  function Values(xs: seq<Sample>): (r: seq<real>)
    requires forall k :: 0 <= k < |xs| ==> xs[k].Num?
    ensures |r| == |xs|
    ensures forall k :: 0 <= k < |xs| ==> r[k] == xs[k].v
  {
    seq(|xs|, k requires 0 <= k < |xs| => xs[k].v)
  }

  lemma AddQuotients(a: real, b: real, t: real)
    requires t > 0.0
    ensures a / t + b / t == (a + b) / t
  {
  }

  /** Each count as a share of `t` */
  function Shares(ns: seq<nat>, t: real): (r: seq<real>)
    requires t > 0.0
    ensures |r| == |ns|
    ensures forall k :: 0 <= k < |ns| ==> r[k] == ns[k] as real / t
  {
    seq(|ns|, k requires 0 <= k < |ns| => ns[k] as real / t)
  }

  lemma {:induction false} SumOfShares(ns: seq<nat>, t: real)
    requires t > 0.0
    ensures Sum(Shares(ns, t)) == NatSum(ns) as real / t
  {
    if |ns| > 0 {
      var n := |ns| - 1;
      SumOfShares(ns[..n], t);
      assert Shares(ns, t)[..n] == Shares(ns[..n], t);
      AddQuotients(NatSum(ns[..n]) as real, ns[n] as real, t);
    }
  }

  /** The ratios partition the pupil: each lies in [0, 1] and they sum to 1. */
  lemma RatiosSumToOne(asms: seq<Asm>)
    requires NatSum(PointCounts(asms)) > 0
    ensures var r := AreaRatios(asms);
      && (forall k :: 0 <= k < |r| ==> r[k].Num? && 0.0 <= r[k].v <= 1.0)
      && Sum(Values(r)) == 1.0
  {
    var ns := PointCounts(asms);
    var t := NatSum(ns) as real;
    var r := AreaRatios(asms);
    NatSumBounds(ns);
    forall k | 0 <= k < |r|
      ensures r[k].Num? && 0.0 <= r[k].v <= 1.0
    {
      ShareBounds(ns[k] as real, t);
    }
    assert Values(r) == Shares(ns, t);
    SumOfShares(ns, t);
    DivSelf(t);
  }

  lemma DivSelf(t: real)
    requires t > 0.0
    ensures t / t == 1.0
  {
  }

  lemma ShareBounds(a: real, t: real)
    requires 0.0 <= a <= t && t > 0.0
    ensures 0.0 <= a / t <= 1.0
  {
  }

  // ----- mirror shape -----

  /** Every listed mode index exists on every segment. */
  predicate IndicesFit(asms: seq<Asm>, idx: Option<seq<nat>>) {
    idx.Some? ==> forall k :: 0 <= k < |asms| ==> IndicesIn(asms[k].segment, idx.value)
  }

  /** One layer per segment: its mask, and its shape to write under it */
  function Layers(asms: seq<Asm>, idx: Option<seq<nat>>): (r: seq<Layer>)
    requires AllValid(asms) && IndicesFit(asms, idx)
    ensures |r| == |asms|
    ensures forall k :: 0 <= k < |asms| ==>
      r[k] == Layer(asms[k].segment.mask, Shape(asms[k].segment, idx))
  {
    seq(|asms|, k requires 0 <= k < |asms| => Layer(asms[k].segment.mask, Shape(asms[k].segment, idx)))
  }

  /** A segment writes the positions its mask selects, up to one per
      sample of its shape. */
  lemma LayerWrites(asms: seq<Asm>, idx: Option<seq<nat>>, k: nat, i: nat)
    requires AllValid(asms) && IndicesFit(asms, idx) && k < |asms|
    ensures Writes(Layers(asms, idx)[k], i) <==>
      Selects(asms[k].segment.mask, i) && Rank(asms[k].segment.mask, i) < asms[k].segment.NPoint()
  {
  }

  /** `mirror_shape`: every segment's shape scattered through its mask, in
      order, into a NaN grid. A position keeps NaN unless some segment writes
      it, and then shows the sample of the last segment that does. */
  function MirrorShape(asms: seq<Asm>, idx: Option<seq<nat>>): (r: seq<Sample>)
    requires AllValid(asms) && IndicesFit(asms, idx)
    ensures |r| == GridSize
    ensures forall i :: 0 <= i < GridSize ==>
      (r[i] == NaN <== forall k :: 0 <= k < |asms| ==> !Writes(Layers(asms, idx)[k], i))
    ensures forall i, k ::
      (0 <= i < GridSize && 0 <= k < |asms| && Writes(Layers(asms, idx)[k], i) &&
       forall j :: k < j < |asms| ==> !Writes(Layers(asms, idx)[j], i))
      ==> r[i] == Shape(asms[k].segment, idx)[Rank(asms[k].segment.mask, i)]
  {
    var ls := Layers(asms, idx);
    var r := PaintTo(ls, seq(GridSize, _ => NaN), |asms|);
    forall i, k | 0 <= i < GridSize && 0 <= k < |asms| && Writes(ls[k], i)
      && (forall j :: k < j < |asms| ==> !Writes(ls[j], i))
      ensures r[i] == Shape(asms[k].segment, idx)[Rank(asms[k].segment.mask, i)]
    {
      LastWriterIs(ls, i, k);
    }
    r
  }

  /** Positions outside the union mask are NaN in the mirror shape. */
  lemma UncoveredIsNaN(asms: seq<Asm>, idx: Option<seq<nat>>, i: nat)
    requires AllValid(asms) && IndicesFit(asms, idx) && i < GridSize && !Union(asms)[i]
    ensures MirrorShape(asms, idx)[i] == NaN
  {
    assert !Covered(asms, i);
  }

  // ----- mirror shape subtraction -----

  /** `opd` with NaN at every grid position outside the union mask */
  function Blanked(asms: seq<Asm>, opd: seq<Sample>): (r: seq<Sample>)
    ensures |r| == |opd|
    ensures forall i :: 0 <= i < |opd| ==>
      r[i] == if i < GridSize && !Covered(asms, i) then NaN else opd[i]
  {
    var u := Union(asms);
    seq(|opd|, i requires 0 <= i < |opd| => if i < |u| && !u[i] then NaN else opd[i])
  }

  /** `mirror_shape_sub`: NaN outside the union mask, then every segment
      subtracts its shape inside its own mask, in order. */
  function MirrorShapeSub(asms: seq<Asm>, opd: seq<Sample>, idx: Option<seq<nat>>): (r: seq<Sample>)
    requires AllValid(asms) && IndicesFit(asms, idx)
    ensures |r| == |opd|
    ensures forall i :: 0 <= i < |opd| ==>
      r[i] == Deducted(Layers(asms, idx), Blanked(asms, opd)[i], i, |asms|)
  {
    SubTo(Layers(asms, idx), Blanked(asms, opd), |asms|)
  }

  /** Every position outside the union mask is NaN after `mirror_shape_sub`. */
  lemma SubBlanksUncovered(asms: seq<Asm>, opd: seq<Sample>, idx: Option<seq<nat>>, i: nat)
    requires AllValid(asms) && IndicesFit(asms, idx)
    requires i < |opd| && i < GridSize && !Union(asms)[i]
    ensures MirrorShapeSub(asms, opd, idx)[i] == NaN
  {
    DeductedNaN(Layers(asms, idx), i, |asms|);
  }

  /** Every mask spans the grid and gathers one sample per mode sample, as
      the loaded segments do. */
  predicate OnGrid(asms: seq<Asm>) {
    forall k :: 0 <= k < |asms| ==> |asms[k].segment.mask| == GridSize && asms[k].segment.MaskFits()
  }

  /** No grid position lies under two segment masks. */
  predicate Disjoint(asms: seq<Asm>) {
    forall j, k, i :: 0 <= j < k < |asms| && 0 <= i < |asms[j].segment.mask| && asms[j].segment.mask[i] ==>
      !Selects(asms[k].segment.mask, i)
  }

  /** A selected position ranks below the number of selected positions. */
  lemma RankBelow(mask: seq<bool>, i: nat)
    requires i < |mask| && mask[i]
    ensures Rank(mask, i) < Rank(mask, |mask|)
  {
    var g := Masked(mask, mask);
    assert Selects(mask, i);
  }

  /** On the grid, a segment writes exactly the positions its mask selects. */
  lemma WritesSelected(asms: seq<Asm>, idx: Option<seq<nat>>, k: nat, i: nat)
    requires AllValid(asms) && IndicesFit(asms, idx)
    requires OnGrid(asms) && k < |asms| && i < GridSize
    ensures Writes(Layers(asms, idx)[k], i) <==> Selects(asms[k].segment.mask, i)
  {
    var s := asms[k].segment;
    if Selects(s.mask, i) {
      RankBelow(s.mask, i);
    }
  }

  /** For segments on the grid with disjoint masks, `mirror_shape_sub` of a
      full field is the field minus the mirror shape, sample by sample; this
      holds outside the union mask as well, where both sides are NaN. */
  lemma SubIsDifference(asms: seq<Asm>, opd: seq<Sample>, idx: Option<seq<nat>>)
    requires AllValid(asms) && IndicesFit(asms, idx) && OnGrid(asms) && Disjoint(asms)
    requires |opd| == GridSize
    ensures MirrorShapeSub(asms, opd, idx) == ZipWith(opd, MirrorShape(asms, idx), (a: Sample, b: Sample) => a.Minus(b))
  {
    var r := MirrorShapeSub(asms, opd, idx);
    var m := MirrorShape(asms, idx);
    forall i | 0 <= i < GridSize
      ensures r[i] == opd[i].Minus(m[i])
    {
      SubAt(asms, opd, idx, i);
    }
  }

  /** The same at one position */
  lemma SubAt(asms: seq<Asm>, opd: seq<Sample>, idx: Option<seq<nat>>, i: nat)
    requires AllValid(asms) && IndicesFit(asms, idx) && OnGrid(asms) && Disjoint(asms)
    requires |opd| == GridSize && i < GridSize
    ensures MirrorShapeSub(asms, opd, idx)[i] == opd[i].Minus(MirrorShape(asms, idx)[i])
  {
    var ls := Layers(asms, idx);
    forall k | 0 <= k < |asms| {
      WritesSelected(asms, idx, k, i);
    }
    if Covered(asms, i) {
      var w :| 0 <= w < |asms| && Selects(asms[w].segment.mask, i);
      assert forall j :: 0 <= j < |asms| && j != w ==> !Writes(ls[j], i);
      SubtractPainted(ls, opd[i], i, w);
    } else {
      DeductedNaN(ls, i, |asms|);
    }
  }

  // ----- the subtraction operator on fields -----

  /** `&opd - &asms`: a copy of the field with the full mirror shape
      subtracted. The stored extrema are copied along, on the assumption
      that `Clone` copies them and `mut_map` changes only the samples. */
  function Residual(o: Opd, asms: seq<Asm>): (r: Opd)
    requires AllValid(asms)
    ensures r.max == o.max && r.min == o.min
    ensures |r.data| == |o.data|
  {
    Opd(MirrorShapeSub(asms, o.data, None), o.max, o.min)
  }

  /** The residual field is the field minus the mirror shape of all modes. */
  lemma ResidualIsDifference(o: Opd, asms: seq<Asm>)
    requires AllValid(asms) && OnGrid(asms) && Disjoint(asms) && |o.data| == GridSize
    ensures Residual(o, asms).data == ZipWith(o.data, MirrorShape(asms, None), (a: Sample, b: Sample) => a.Minus(b))
  {
    SubIsDifference(asms, o.data, None);
  }

  // ----- fits of all segments -----

  /** Every segment accepts the length of `opd`. */
  predicate AllAccept(asms: seq<Asm>, opd: seq<Sample>) {
    forall k :: 0 <= k < |asms| ==> FitInput(asms[k].segment, opd).Ok?
  }

  /** `project` on every segment: an error as soon as one segment rejects
      the field, otherwise every segment holds its projection coefficients. */
  function ProjectAll(asms: seq<Asm>, o: Opd, invSqrt: real -> real): (r: Result<seq<Asm>>)
    requires AllValid(asms)
    ensures r.Err? <==> !AllAccept(asms, o.data)
    ensures r.Err? ==> r.error == Projection
    ensures r.Ok? ==> |r.value| == |asms| && AllValid(r.value)
    ensures r.Ok? ==> forall k :: 0 <= k < |asms| ==>
      Sid(r.value[k]) == Sid(asms[k]) &&
      r.value[k].segment == asms[k].segment.(coefficients := ProjectOut(asms[k].segment, o.data, invSqrt).value)
    decreases |asms|
  {
    if |asms| == 0 then Ok([])
    else
      var (s, out) := Project(asms[0].segment, o.data, invSqrt);
      match out
      case Fail(e) => Err(e)
      case Pass =>
        match ProjectAll(asms[1..], o, invSqrt)
        case Err(e) => Err(e)
        case Ok(rest) => Ok([WithSegment(asms[0], s)] + rest)
  }

  /** Every segment gathers one sample per mode sample from a full grid,
      which the least-squares product needs. */
  predicate AllFit(asms: seq<Asm>) {
    forall k :: 0 <= k < |asms| ==> asms[k].segment.MaskFits()
  }

  /** `least_square` on every segment */
  function LeastSquareAll(asms: seq<Asm>, o: Opd): (r: Result<seq<Asm>>)
    requires AllValid(asms)
    requires |o.data| == GridSize ==> AllFit(asms)
    ensures r.Err? <==> !AllAccept(asms, o.data)
    ensures r.Err? ==> r.error == Projection
    ensures r.Ok? ==> |r.value| == |asms| && AllValid(r.value)
    ensures r.Ok? ==> forall k :: 0 <= k < |asms| ==>
      Sid(r.value[k]) == Sid(asms[k]) &&
      r.value[k].segment == asms[k].segment.(coefficients := LeastSquareOut(asms[k].segment, o.data).value)
    decreases |asms|
  {
    if |asms| == 0 then Ok([])
    else
      var (s, out) := LeastSquare(asms[0].segment, o.data);
      match out
      case Fail(e) => Err(e)
      case Pass =>
        match LeastSquareAll(asms[1..], o)
        case Err(e) => Err(e)
        case Ok(rest) => Ok([WithSegment(asms[0], s)] + rest)
  }

  /** Where segment `k`'s coefficients start in the concatenation: the
      number of modes of the segments before it */
  function ModeOffset(asms: seq<Asm>, k: nat): nat
    requires k <= |asms|
  {
    if k == 0 then 0 else asms[0].segment.nMode + ModeOffset(asms[1..], k - 1)
  }

  /** One piece per segment, of its mode count: the pieces start at the mode offsets. */
  lemma {:induction false} OffsetIsModeOffset<T>(pieces: seq<seq<T>>, asms: seq<Asm>, k: nat)
    requires |pieces| == |asms| && k <= |asms|
    requires forall q :: 0 <= q < |asms| ==> |pieces[q]| == asms[q].segment.nMode
    ensures Offset(pieces, k) == ModeOffset(asms, k)
  {
    if k > 0 {
      OffsetIsModeOffset(pieces[1..], asms[1..], k - 1);
    }
  }

  /** The concatenation of one piece per segment: piece `k` starts at the
      mode offset of segment `k`. */
  lemma FlattenByModes<T>(pieces: seq<seq<T>>, asms: seq<Asm>)
    requires |pieces| == |asms|
    requires forall q :: 0 <= q < |asms| ==> |pieces[q]| == asms[q].segment.nMode
    ensures |Flatten(pieces)| == ModeOffset(asms, |asms|)
    ensures forall k :: 0 <= k < |asms| ==>
      ModeOffset(asms, k) + asms[k].segment.nMode <= |Flatten(pieces)| &&
      Flatten(pieces)[ModeOffset(asms, k)..ModeOffset(asms, k) + asms[k].segment.nMode] == pieces[k]
  {
    FlattenOffsetLength(pieces);
    OffsetIsModeOffset(pieces, asms, |asms|);
    forall k | 0 <= k < |asms|
      ensures ModeOffset(asms, k) + asms[k].segment.nMode <= |Flatten(pieces)|
      ensures Flatten(pieces)[ModeOffset(asms, k)..ModeOffset(asms, k) + asms[k].segment.nMode] == pieces[k]
    {
      FlattenPiece(pieces, k);
      OffsetIsModeOffset(pieces, asms, k);
    }
  }

  /** `project_out`: every segment's projection coefficients, concatenated
      in segment order. A rejected field makes the Rust code panic. */
  function ProjectOutAll(asms: seq<Asm>, o: Opd, invSqrt: real -> real): (r: seq<Sample>)
    requires AllValid(asms) && AllAccept(asms, o.data)
    ensures |r| == ModeOffset(asms, |asms|)
    ensures forall k :: 0 <= k < |asms| ==>
      ModeOffset(asms, k) + asms[k].segment.nMode <= |r| &&
      r[ModeOffset(asms, k)..ModeOffset(asms, k) + asms[k].segment.nMode] == ProjectOut(asms[k].segment, o.data, invSqrt).value
  {
    var pieces := ProjectOutPieces(asms, o, invSqrt);
    FlattenByModes(pieces, asms);
    Flatten(pieces)
  }

  function ProjectOutPieces(asms: seq<Asm>, o: Opd, invSqrt: real -> real): (r: seq<seq<Sample>>)
    requires AllValid(asms) && AllAccept(asms, o.data)
    ensures |r| == |asms|
    ensures forall k :: 0 <= k < |asms| ==> r[k] == ProjectOut(asms[k].segment, o.data, invSqrt).value
  {
    seq(|asms|, k requires 0 <= k < |asms| => ProjectOut(asms[k].segment, o.data, invSqrt).value)
  }

  /** `least_square_out`: every segment's least-squares coefficients,
      concatenated in segment order. */
  function LeastSquareOutAll(asms: seq<Asm>, o: Opd): (r: seq<Sample>)
    requires AllValid(asms) && AllAccept(asms, o.data)
    requires |o.data| == GridSize ==> AllFit(asms)
    ensures |r| == ModeOffset(asms, |asms|)
    ensures forall k :: 0 <= k < |asms| ==>
      ModeOffset(asms, k) + asms[k].segment.nMode <= |r| &&
      r[ModeOffset(asms, k)..ModeOffset(asms, k) + asms[k].segment.nMode] == LeastSquareOut(asms[k].segment, o.data).value
  {
    var pieces := LeastSquareOutPieces(asms, o);
    FlattenByModes(pieces, asms);
    Flatten(pieces)
  }

  function LeastSquareOutPieces(asms: seq<Asm>, o: Opd): (r: seq<seq<Sample>>)
    requires AllValid(asms) && AllAccept(asms, o.data)
    requires |o.data| == GridSize ==> AllFit(asms)
    ensures |r| == |asms|
    ensures forall k :: 0 <= k < |asms| ==> r[k] == LeastSquareOut(asms[k].segment, o.data).value
  {
    seq(|asms|, k requires 0 <= k < |asms| => LeastSquareOut(asms[k].segment, o.data).value)
  }

  /** All segments have `m` modes. */
  predicate ModesPerSegment(asms: seq<Asm>, m: nat) {
    forall k :: 0 <= k < |asms| ==> asms[k].segment.nMode == m
  }

  /** With `m` modes per segment, coefficient `j` of segment `k` sits at
      `k·m + j` of `project_out`: the coefficient `project` stores for that
      segment (see `ProjectAll`). */
  lemma ProjectOutAllAt(asms: seq<Asm>, o: Opd, invSqrt: real -> real, m: nat, k: nat, j: nat)
    requires AllValid(asms) && AllAccept(asms, o.data) && ModesPerSegment(asms, m)
    requires k < |asms| && j < m
    ensures |ProjectOutAll(asms, o, invSqrt)| == |asms| * m
    ensures k * m + j < |ProjectOutAll(asms, o, invSqrt)|
    ensures |ProjectOut(asms[k].segment, o.data, invSqrt).value| == m
    ensures ProjectOutAll(asms, o, invSqrt)[k * m + j] == ProjectOut(asms[k].segment, o.data, invSqrt).value[j]
  {
    var pieces := ProjectOutPieces(asms, o, invSqrt);
    PieceAt(pieces, m, k, j);
  }

  /** The same for `least_square_out`, whose pieces `least_square` stores
      (see `LeastSquareAll`). */
  lemma LeastSquareOutAllAt(asms: seq<Asm>, o: Opd, m: nat, k: nat, j: nat)
    requires AllValid(asms) && AllAccept(asms, o.data) && ModesPerSegment(asms, m)
    requires |o.data| == GridSize ==> AllFit(asms)
    requires k < |asms| && j < m
    ensures |LeastSquareOutAll(asms, o)| == |asms| * m
    ensures k * m + j < |LeastSquareOutAll(asms, o)|
    ensures |LeastSquareOut(asms[k].segment, o.data).value| == m
    ensures LeastSquareOutAll(asms, o)[k * m + j] == LeastSquareOut(asms[k].segment, o.data).value[j]
  {
    var pieces := LeastSquareOutPieces(asms, o);
    PieceAt(pieces, m, k, j);
  }

  /** Concatenated pieces of width `m`: the length and where entry `j` of piece `k` lands */
  lemma PieceAt<T>(pieces: seq<seq<T>>, m: nat, k: nat, j: nat)
    requires forall q :: 0 <= q < |pieces| ==> |pieces[q]| == m
    requires k < |pieces| && j < m
    ensures |Flatten(pieces)| == |pieces| * m
    ensures k * m + j < |Flatten(pieces)| && Flatten(pieces)[k * m + j] == pieces[k][j]
  {
    FlattenLength(pieces, m);
    FlattenAt(pieces, m, k, j);
  }

  // ----- loading -----

  /** `from_bins` once the seven segments are loaded: segment `k` (from 0)
      becomes variant `k + 1`. Every id is in range, so `Bin2Asm` cannot
      arise here. */
  function FromBins(segs: seq<Segment>): (r: Result<seq<Asm>>)
    requires |segs| == SegmentCount
    ensures r.Ok? && |r.value| == SegmentCount
    ensures forall k :: 0 <= k < SegmentCount ==> Sid(r.value[k]) == k + 1 && r.value[k].segment == segs[k]
  {
    Collect(segs, 0)
  }

  /** Collects the variants of ids `from + 1` .. `|segs|`, stopping at the first error */
  function Collect(segs: seq<Segment>, from: nat): (r: Result<seq<Asm>>)
    requires from <= |segs| <= SegmentCount
    ensures r.Ok? && |r.value| == |segs| - from
    ensures forall k :: 0 <= k < |segs| - from ==>
      Sid(r.value[k]) == from + k + 1 && r.value[k].segment == segs[from + k]
    decreases |segs| - from
  {
    if from == |segs| then Ok([])
    else
      match FromSid(from + 1, segs[from])
      case Err(e) => Err(e)
      case Ok(a) =>
        match Collect(segs, from + 1)
        case Err(e) => Err(e)
        case Ok(rest) => Ok([a] + rest)
  }
}

=== FILE: chunks.dfy ===
/** `slice::chunks` and its inverse, concatenation. */
module Chunking {

  /** `xs.chunks(n)`: consecutive pieces of length `n`, the last one shorter
      when `n` does not divide `|xs|`. */
  function Chunks<T>(xs: seq<T>, n: nat): (r: seq<seq<T>>)
    requires n > 0
    ensures |xs| == 0 <==> |r| == 0
    ensures forall i :: 0 <= i < |r| ==> 0 < |r[i]| <= n
    decreases |xs|
  {
    if |xs| == 0 then []
    else if |xs| <= n then [xs]
    else [xs[..n]] + Chunks(xs[n..], n)
  }

  /** Concatenation of the pieces, in order (`flat_map`). */
  function Flatten<T>(xss: seq<seq<T>>): seq<T> {
    if |xss| == 0 then [] else xss[0] + Flatten(xss[1..])
  }

  /** Chunking loses nothing and reorders nothing. */
  lemma {:induction false} FlattenChunks<T>(xs: seq<T>, n: nat)
    requires n > 0
    ensures Flatten(Chunks(xs, n)) == xs
    decreases |xs|
  {
    if |xs| == 0 {
    } else if |xs| <= n {
      assert Flatten(Chunks(xs, n)) == xs + Flatten([]);
    } else {
      FlattenChunks(xs[n..], n);
      assert Chunks(xs, n)[1..] == Chunks(xs[n..], n);
    }
  }

  /** When `n` divides the length there are exactly `k` pieces, all full. */
  lemma {:induction false} ChunksExact<T>(xs: seq<T>, n: nat, k: nat)
    requires n > 0 && |xs| == k * n
    ensures |Chunks(xs, n)| == k
    ensures forall i :: 0 <= i < k ==> |Chunks(xs, n)[i]| == n
    decreases k
  {
    if k > 1 {
      MulPred(k, n);
      var rest := xs[n..];
      ChunksExact(rest, n, k - 1);
      assert Chunks(xs, n) == [xs[..n]] + Chunks(rest, n);
    }
  }

  /** A piece that lies wholly inside `xs` is the slice `xs[i*n .. (i+1)*n]`. */
  lemma {:induction false} ChunkAt<T>(xs: seq<T>, n: nat, i: nat)
    requires n > 0 && (i + 1) * n <= |xs|
    ensures i < |Chunks(xs, n)|
    ensures 0 <= i * n <= (i + 1) * n
    ensures Chunks(xs, n)[i] == xs[i * n .. (i + 1) * n]
    decreases i
  {
    MulPred(i + 1, n);
    var lo, hi := i * n, (i + 1) * n;
    assert hi == n + lo;
    if i == 0 {
      assert lo == 0;
    } else {
      MulPred(i, n);
      var rest := xs[n..];
      var lo' := (i - 1) * n;
      assert lo == n + lo';
      ChunkAt(rest, n, i - 1);
      assert Chunks(xs, n) == [xs[..n]] + Chunks(rest, n);
      assert rest[lo' .. lo] == xs[lo .. hi];
    }
  }

  /** Concatenating pieces of width `w` gives `|xss|·w` entries. */
  lemma {:induction false} FlattenLength<T>(xss: seq<seq<T>>, w: nat)
    requires forall i :: 0 <= i < |xss| ==> |xss[i]| == w
    ensures |Flatten(xss)| == |xss| * w
  {
    if |xss| > 0 {
      FlattenLength(xss[1..], w);
      MulPred(|xss|, w);
    }
  }

  /** Concatenating pieces of width `w` puts entry `k` of piece `i` at `i*w + k`. */
  lemma {:induction false} FlattenAt<T>(xss: seq<seq<T>>, w: nat, i: nat, k: nat)
    requires forall j :: 0 <= j < |xss| ==> |xss[j]| == w
    requires i < |xss| && k < w
    ensures i * w + k < |Flatten(xss)| && Flatten(xss)[i * w + k] == xss[i][k]
  {
    FlattenLength(xss, w);
    MulBound(i, k, w, |xss|);
    if i > 0 {
      FlattenAt(xss[1..], w, i - 1, k);
      MulPred(i, w);
    }
  }

  /** Where piece `i` starts in the concatenation: the total length of the
      pieces before it */
  function Offset<T>(xss: seq<seq<T>>, i: nat): nat
    requires i <= |xss|
  {
    if i == 0 then 0 else |xss[0]| + Offset(xss[1..], i - 1)
  }

  /** The concatenation is as long as all the pieces together. */
  lemma {:induction false} FlattenOffsetLength<T>(xss: seq<seq<T>>)
    ensures |Flatten(xss)| == Offset(xss, |xss|)
  {
    if |xss| > 0 {
      FlattenOffsetLength(xss[1..]);
    }
  }

  /** Piece `i`, whatever the widths, is the slice of the concatenation
      that starts at `Offset(xss, i)`. */
  lemma {:induction false} FlattenPiece<T>(xss: seq<seq<T>>, i: nat)
    requires i < |xss|
    ensures Offset(xss, i) + |xss[i]| <= |Flatten(xss)|
    ensures Flatten(xss)[Offset(xss, i)..Offset(xss, i) + |xss[i]|] == xss[i]
  {
    var rest := Flatten(xss[1..]);
    assert Flatten(xss) == xss[0] + rest;
    if i == 0 {
      assert (xss[0] + rest)[..|xss[0]|] == xss[0];
    } else {
      FlattenPiece(xss[1..], i - 1);
      var p := Offset(xss[1..], i - 1);
      assert xss[1..][i - 1] == xss[i];
      assert (xss[0] + rest)[|xss[0]| + p..|xss[0]| + p + |xss[i]|] == rest[p..p + |xss[i]|];
    }
  }

  lemma MulPred(i: nat, w: nat)
    requires i > 0
    ensures i * w == w + (i - 1) * w
  {
  }

  lemma {:induction false} MulBound(i: nat, k: nat, w: nat, m: nat)
    requires i < m && k < w
    ensures i * w + k < m * w
    decreases m
  {
    MulPred(m, w);
    if i < m - 1 {
      MulBound(i, k, w, m - 1);
    }
  }
}

=== FILE: fitting.dfy ===
/** What the fits and the reconstruction of a segment mean together: the
    reconstruction is the mode matrix times the coefficient vector, and
    fitting a reconstruction gives its coefficients back, exactly for the
    least-squares fit with a left-inverse pseudo-inverse, and for the
    projection when the modes are orthogonal with unit mean square. */
module Fitting {
  import opened Wrappers
  import opened Samples
  import opened Masking
  import opened Segments

  /** Row `p` of the mode matrix: sample `p` of every mode */
  function Row(ms: seq<seq<real>>, p: nat): (r: seq<real>)
    requires forall k :: 0 <= k < |ms| ==> p < |ms[k]|
    ensures |r| == |ms|
    ensures forall k :: 0 <= k < |ms| ==> r[k] == ms[k][p]
  {
    seq(|ms|, k requires 0 <= k < |ms| => ms[k][p])
  }

  lemma {:induction false} LinCombToAt(ms: seq<seq<real>>, cs: seq<Sample>, n: nat, k: nat, p: nat)
    requires k <= |ms| && k <= |cs| && p < n
    requires forall j :: 0 <= j < |ms| ==> |ms[j]| == n
    ensures LinCombTo(ms, cs, n, k)[p] == SampleDotTo(Row(ms, p), cs, k)
  {
    if k > 0 {
      LinCombToAt(ms, cs, n, k - 1, p);
    }
  }

  /** Sample `p` of a combination of modes is row `p` of the mode matrix
      against the coefficients. */
  lemma LinCombAt(ms: seq<seq<real>>, cs: seq<Sample>, n: nat, p: nat)
    requires p < n
    requires forall j :: 0 <= j < |ms| ==> |ms[j]| == n
    ensures LinComb(ms, cs, n)[p] == SampleDot(Row(ms, p), cs)
  {
    LinCombToAt(ms, cs, n, Min(|ms|, |cs|), p);
  }

  /** `shape(None)` is the mode matrix times the coefficient vector: every
      sample is a row of the matrix against the coefficients, over the first
      `min(n_mode, |coefficients|)` modes. */
  lemma ShapeIsMatrixProduct(s: Segment, p: nat)
    requires s.Valid() && p < s.NPoint()
    ensures Shape(s, None)[p] == SampleDot(Row(s.Modes(), p), s.coefficients)
  {
    LinCombAt(s.Modes(), s.coefficients, s.NPoint(), p);
  }

  /** A selection reconstructs from the listed modes and coefficients only. */
  lemma ShapeOfSelection(s: Segment, idx: seq<nat>, p: nat)
    requires s.Valid() && IndicesIn(s, idx) && p < s.NPoint()
    ensures Shape(s, Some(idx))[p] ==
      SampleDot(seq(|idx|, j requires 0 <= j < |idx| => s.Modes()[idx[j]][p]),
                seq(|idx|, j requires 0 <= j < |idx| => s.coefficients[idx[j]]))
  {
    var ms := s.Modes();
    var sel := seq(|idx|, j requires 0 <= j < |idx| => ms[idx[j]]);
    LinCombAt(sel, seq(|idx|, j requires 0 <= j < |idx| => s.coefficients[idx[j]]), s.NPoint(), p);
    assert Row(sel, p) == seq(|idx|, j requires 0 <= j < |idx| => s.Modes()[idx[j]][p]);
  }

  lemma {:induction false} LinCombToAgree(ms: seq<seq<real>>, cs: seq<Sample>, ms': seq<seq<real>>, cs': seq<Sample>, n: nat, k: nat)
    requires k <= |ms| && k <= |cs| && k <= |ms'| && k <= |cs'|
    requires forall j :: 0 <= j < k ==> ms[j] == ms'[j] && cs[j] == cs'[j]
    ensures LinCombTo(ms, cs, n, k) == LinCombTo(ms', cs', n, k)
  {
    if k > 0 {
      LinCombToAgree(ms, cs, ms', cs', n, k - 1);
    }
  }

  /** `0..k` */
  function Indices(k: nat): (r: seq<nat>)
    ensures |r| == k && forall j :: 0 <= j < k ==> r[j] == j
  {
    if k == 0 then [] else Indices(k - 1) + [k - 1]
  }

  /** Listing the modes `0, 1, …, k-1` that `zip` pairs with coefficients
      reconstructs the same shape as `None`. */
  lemma ShapeAllIndices(s: Segment)
    requires s.Valid()
    ensures var k := Min(s.nMode, |s.coefficients|);
      IndicesIn(s, Indices(k)) && Shape(s, Some(Indices(k))) == Shape(s, None)
  {
    var k := Min(s.nMode, |s.coefficients|);
    var all := Indices(k);
    var ms := s.Modes();
    LinCombToAgree(seq(k, j requires 0 <= j < k => ms[all[j]]),
                   seq(k, j requires 0 <= j < k => s.coefficients[all[j]]),
                   ms, s.coefficients, s.NPoint(), k);
  }

  /** A segment without coefficients, as built, reconstructs to zero. */
  lemma FreshShapeIsZero(s: Segment)
    requires s.Valid() && s.coefficients == []
    ensures Shape(s, None) == Zeros(s.NPoint())
  {
  }

  /** Σ_{j<k} c[j]·⟨p, ms[j]⟩ */
  function Weighted(p: seq<real>, ms: seq<seq<real>>, c: seq<real>, k: nat): real
    requires k <= |ms| && k <= |c|
  {
    if k == 0 then 0.0 else Weighted(p, ms, c, k - 1) + c[k - 1] * Dot(p, ms[k - 1])
  }

  /** `w + m·cv` over the common prefix, on plain numbers */
  function AddMultiple(w: seq<real>, m: seq<real>, cv: real): (r: seq<real>)
    ensures |r| == |w|
  {
    seq(|w|, j requires 0 <= j < |w| => if j < |m| then w[j] + m[j] * cv else w[j])
  }

  /** Σ_{j<k} c[j]·ms[j] on `n` numbers: the NaN-free counterpart of `LinCombTo` */
  function Combination(ms: seq<seq<real>>, c: seq<real>, n: nat, k: nat): (r: seq<real>)
    requires k <= |ms| && k <= |c|
    ensures |r| == n
  {
    if k == 0 then Flat(n, 0.0) else AddMultiple(Combination(ms, c, n, k - 1), ms[k - 1], c[k - 1])
  }

  /** One accumulation step on numbers stays on numbers. */
  lemma AddScaledNums(w: seq<real>, m: seq<real>, cv: real)
    ensures AddScaled(Nums(w), m, Num(cv)) == Nums(AddMultiple(w, m, cv))
  {
    var lhs, rhs := AddScaled(Nums(w), m, Num(cv)), Nums(AddMultiple(w, m, cv));
    forall j | 0 <= j < |w|
      ensures lhs[j] == rhs[j]
    {
      assert Nums(w)[j] == Num(w[j]);
    }
  }

  /** With numeric coefficients the reconstruction never produces NaN: it is
      the plain linear combination. */
  lemma {:induction false} LinCombToNums(ms: seq<seq<real>>, c: seq<real>, n: nat, k: nat)
    requires k <= |ms| && k <= |c|
    ensures LinCombTo(ms, Nums(c), n, k) == Nums(Combination(ms, c, n, k))
  {
    if k == 0 {
      assert Nums(Flat(n, 0.0)) == Zeros(n);
    } else {
      LinCombToNums(ms, c, n, k - 1);
      assert Nums(c)[k - 1] == Num(c[k - 1]);
      AddScaledNums(Combination(ms, c, n, k - 1), ms[k - 1], c[k - 1]);
    }
  }

  lemma {:induction false} DotToAddMultiple(p: seq<real>, w: seq<real>, m: seq<real>, cv: real, q: nat)
    requires |w| == |m| == |p| && q <= |p|
    ensures DotTo(p, AddMultiple(w, m, cv), q) == DotTo(p, w, q) + cv * DotTo(p, m, q)
  {
    if q > 0 {
      DotToAddMultiple(p, w, m, cv, q - 1);
      var a := DotTo(p, w, q - 1);
      var d := DotTo(p, m, q - 1);
      var x, y, z := p[q - 1], w[q - 1], m[q - 1];
      StepAlgebra(a, d, cv, x, y, z);
    }
  }

  lemma DotAddMultiple(p: seq<real>, w: seq<real>, m: seq<real>, cv: real)
    requires |w| == |m| == |p|
    ensures Dot(p, AddMultiple(w, m, cv)) == Dot(p, w) + cv * Dot(p, m)
  {
    DotToAddMultiple(p, w, m, cv, |p|);
  }

  lemma StepAlgebra(a: real, d: real, cv: real, x: real, y: real, z: real)
    ensures a + cv * d + x * (y + z * cv) == (a + x * y) + cv * (d + x * z)
  {
  }

  /** The inner product with a combination is the weighted sum of inner products. */
  lemma {:induction false} DotCombination(p: seq<real>, ms: seq<seq<real>>, c: seq<real>, k: nat)
    requires k <= |ms| && k <= |c|
    requires forall j :: 0 <= j < |ms| ==> |ms[j]| == |p|
    ensures Dot(p, Combination(ms, c, |p|, k)) == Weighted(p, ms, c, k)
  {
    if k == 0 {
      ZeroDot(p, |p|);
    } else {
      DotCombination(p, ms, c, k - 1);
      DotAddMultiple(p, Combination(ms, c, |p|, k - 1), ms[k - 1], c[k - 1]);
    }
  }

  /** Applying `p` to the reconstruction from numeric coefficients `c` gives
      Σ_j c[j]·⟨p, ms[j]⟩. */
  lemma DotLinCombTo(p: seq<real>, ms: seq<seq<real>>, c: seq<real>, k: nat)
    requires k <= |ms| && k <= |c|
    requires forall j :: 0 <= j < |ms| ==> |ms[j]| == |p|
    ensures SampleDot(p, LinCombTo(ms, Nums(c), |p|, k)) == Num(Weighted(p, ms, c, k))
  {
    LinCombToNums(ms, c, |p|, k);
    SampleDotNums(p, Combination(ms, c, |p|, k));
    DotCombination(p, ms, c, k);
  }

  lemma {:induction false} ZeroDot(p: seq<real>, q: nat)
    requires q <= |p|
    ensures DotTo(p, Flat(|p|, 0.0), q) == 0.0
  {
    if q > 0 {
      ZeroDot(p, q - 1);
    }
  }

  /** Only one term of the weighted sum survives when `p` is orthogonal to
      every other mode. */
  lemma {:induction false} WeightedSingle(p: seq<real>, ms: seq<seq<real>>, c: seq<real>, k: nat, i: nat)
    requires k <= |ms| && k <= |c| && i < k
    requires forall j :: 0 <= j < k && j != i ==> Dot(p, ms[j]) == 0.0
    ensures Weighted(p, ms, c, k) == c[i] * Dot(p, ms[i])
  {
    if k - 1 != i {
      WeightedSingle(p, ms, c, k - 1, i);
    } else {
      WeightedNone(p, ms, c, k - 1, i);
    }
  }

  lemma {:induction false} WeightedNone(p: seq<real>, ms: seq<seq<real>>, c: seq<real>, k: nat, i: nat)
    requires k <= |ms| && k <= |c|
    requires forall j :: 0 <= j < k && j != i ==> Dot(p, ms[j]) == 0.0
    requires i >= k
    ensures Weighted(p, ms, c, k) == 0.0
  {
    if k > 0 {
      WeightedNone(p, ms, c, k - 1, i);
    }
  }

  /** The segment with coefficients `c` */
  function WithCoefficients(s: Segment, c: seq<real>): (r: Segment)
    requires s.Valid()
    ensures r.Valid() && r.Modes() == s.Modes() && r.coefficients == Nums(c)
  {
    s.(coefficients := Nums(c))
  }

  /** The pseudo-inverse is a left inverse of the mode matrix. */
  predicate LeftInverse(s: Segment)
    requires s.Valid()
  {
    forall i, j :: 0 <= i < s.nMode && 0 <= j < s.nMode ==>
      Dot(s.modesPinv[i], s.Modes()[j]) == if i == j then 1.0 else 0.0
  }

  /** Least squares fits a reconstruction exactly: `modes_pinv` applied to
      the shape of coefficients `c` gives `c` back. */
  lemma LeastSquareInvertsShape(s: Segment, c: seq<real>)
    requires s.Valid() && |c| == s.nMode && LeftInverse(s)
    ensures LeastSquareCoefficients(s, Shape(WithCoefficients(s, c), None)) == Nums(c)
  {
    var t := WithCoefficients(s, c);
    var w := Shape(t, None);
    var ms := s.Modes();
    forall i | 0 <= i < s.nMode
      ensures SampleDot(s.modesPinv[i], w) == Num(c[i])
    {
      DotLinCombTo(s.modesPinv[i], ms, c, s.nMode);
      WeightedSingle(s.modesPinv[i], ms, c, s.nMode, i);
    }
  }

  /** Pairwise orthogonal vectors */
  predicate Orthogonal(ms: seq<seq<real>>) {
    forall i, j :: 0 <= i < |ms| && 0 <= j < |ms| && i != j ==> Dot(ms[i], ms[j]) == 0.0
  }

  /** The normaliser of every mode is the reciprocal of its square sum
      ⟨m, m⟩ = Σm²: 1/sqrt(Σm²·n_point) = 1/Σm². With an exact inverse
      square root this holds when Σm² = n_point, i.e. at unit mean square
      (see `UnitMeanSquareNormalises`). */
  predicate Normalised(ms: seq<seq<real>>, n: nat, invSqrt: real -> real) {
    forall i {:trigger NormFactor(ms[i], n, invSqrt)} :: 0 <= i < |ms| ==> NormFactor(ms[i], n, invSqrt) * Dot(ms[i], ms[i]) == 1.0
  }

  /** One vector of an orthogonal family against all the others */
  lemma OrthogonalRow(ms: seq<seq<real>>, i: nat)
    requires Orthogonal(ms) && i < |ms|
    ensures forall j :: 0 <= j < |ms| && j != i ==> Dot(ms[i], ms[j]) == 0.0
  {
  }

  /** When `m_i` is orthogonal to every other vector, ⟨m_i, Σ c_j m_j⟩ = c_i·⟨m_i, m_i⟩. */
  lemma OrthogonalDot(ms: seq<seq<real>>, c: seq<real>, n: nat, i: nat)
    requires forall j :: 0 <= j < |ms| ==> |ms[j]| == n
    requires |c| == |ms| && i < |ms|
    requires forall j :: 0 <= j < |ms| && j != i ==> Dot(ms[i], ms[j]) == 0.0
    ensures SampleDot(ms[i], LinCombTo(ms, Nums(c), n, |ms|)) == Num(c[i] * Dot(ms[i], ms[i]))
  {
    DotLinCombTo(ms[i], ms, c, |ms|);
    WeightedSingle(ms[i], ms, c, |ms|, i);
  }

  /** The projection fits a reconstruction exactly when the modes are
      orthogonal and normalised. */
  lemma ProjectInvertsShape(s: Segment, c: seq<real>, invSqrt: real -> real)
    requires s.Valid() && |c| == s.nMode && Orthogonal(s.Modes()) && Normalised(s.Modes(), s.NPoint(), invSqrt)
    ensures ProjectCoefficients(s, Shape(WithCoefficients(s, c), None), invSqrt) == Nums(c)
  {
    var r := ProjectCoefficients(s, Shape(WithCoefficients(s, c), None), invSqrt);
    forall i | 0 <= i < s.nMode
      ensures r[i] == Num(c[i])
    {
      ProjectAt(s, c, invSqrt, i);
    }
  }

  /** One coefficient of that projection */
  lemma ProjectAt(s: Segment, c: seq<real>, invSqrt: real -> real, i: nat)
    requires s.Valid() && |c| == s.nMode && Orthogonal(s.Modes()) && Normalised(s.Modes(), s.NPoint(), invSqrt)
    requires i < s.nMode
    ensures ProjectCoefficients(s, Shape(WithCoefficients(s, c), None), invSqrt)[i] == Num(c[i])
  {
    var w := Shape(WithCoefficients(s, c), None);
    var ms := s.Modes();
    assert w == LinCombTo(ms, Nums(c), s.NPoint(), |ms|);
    NormalisedAt(ms, s.NPoint(), invSqrt, i);
    ProjectOne(ms, c, s.NPoint(), i, NormFactor(ms[i], s.NPoint(), invSqrt));
  }

  /** Mode `i`'s coefficient: ⟨m_i, Σ c_j m_j⟩ = c_i·⟨m_i, m_i⟩, scaled by
      a normaliser `f` that is the reciprocal of ⟨m_i, m_i⟩. */
  lemma ProjectOne(ms: seq<seq<real>>, c: seq<real>, n: nat, i: nat, f: real)
    requires forall j :: 0 <= j < |ms| ==> |ms[j]| == n
    requires Orthogonal(ms) && |c| == |ms| && i < |ms|
    requires f * Dot(ms[i], ms[i]) == 1.0
    ensures SampleDot(ms[i], LinCombTo(ms, Nums(c), n, |ms|)).Scale(f) == Num(c[i])
  {
    OrthogonalRow(ms, i);
    OrthogonalDot(ms, c, n, i);
    Unscale(SampleDot(ms[i], LinCombTo(ms, Nums(c), n, |ms|)), f, Dot(ms[i], ms[i]), c[i]);
  }

  /** The normalisation of one mode */
  lemma NormalisedAt(ms: seq<seq<real>>, n: nat, invSqrt: real -> real, i: nat)
    requires Normalised(ms, n, invSqrt) && i < |ms|
    ensures NormFactor(ms[i], n, invSqrt) * Dot(ms[i], ms[i]) == 1.0
  {
  }

  /** Scaling `x·q` by a reciprocal of `q` gives back `x`. */
  lemma Unscale(d: Sample, f: real, q: real, x: real)
    requires d == Num(x * q) && f * q == 1.0
    ensures d.Scale(f) == Num(x)
  {
    assert f * (x * q) == x * (f * q);
  }

  /** `invSqrt(n²) = 1/n` */
  predicate InverseRootAtSquare(invSqrt: real -> real, n: nat) {
    invSqrt(n as real * n as real) * n as real == 1.0
  }

  /** Unit mean square (Σm² = n_point) with an exact inverse square root
      makes the normaliser the reciprocal of ⟨m, m⟩. */
  lemma UnitMeanSquareNormalises(mode: seq<real>, n: nat, invSqrt: real -> real)
    requires SumSq(mode) == n as real
    ensures InverseRootAtSquare(invSqrt, n) ==> NormFactor(mode, n, invSqrt) * Dot(mode, mode) == 1.0
  {
    DotSelf(mode);
    assert NormSquare(mode, n) == n as real * n as real;
  }

  /** For modes of unit norm (Σm² = 1, as `Segment::new` documents them)
      the normaliser is 1/sqrt(n_point), not 1/n_point: projecting the
      shape of `c` gives back `c_i/sqrt(n_point)` for an orthogonal mode. */
  lemma UnitNormProjects(s: Segment, c: seq<real>, invSqrt: real -> real, i: nat)
    requires s.Valid() && |c| == s.nMode && Orthogonal(s.Modes()) && i < s.nMode
    requires SumSq(s.Modes()[i]) == 1.0
    ensures ProjectCoefficients(s, Shape(WithCoefficients(s, c), None), invSqrt)[i]
      == Num(c[i]).Scale(invSqrt(s.NPoint() as real))
  {
    var ms := s.Modes();
    var f := NormFactor(ms[i], s.NPoint(), invSqrt);
    var d := SampleDot(ms[i], LinCombTo(ms, Nums(c), s.NPoint(), s.nMode));
    assert ProjectCoefficients(s, Shape(WithCoefficients(s, c), None), invSqrt)[i] == d.Scale(f) by {
      ProjectedShape(s, c, invSqrt, i);
    }
    assert d.Scale(f) == Num(c[i]).Scale(invSqrt(s.NPoint() as real)) by {
      UnitNormFactor(ms[i], s.NPoint(), invSqrt);
      UnitProjectOne(ms, c, s.NPoint(), i, f, invSqrt(s.NPoint() as real));
    }
  }

  /** Mode `i`'s projection of the shape of `c` is the normalised dot
      product of the mode with the combination `Σ c_j m_j`. */
  lemma ProjectedShape(s: Segment, c: seq<real>, invSqrt: real -> real, i: nat)
    requires s.Valid() && |c| == s.nMode && i < s.nMode
    ensures ProjectCoefficients(s, Shape(WithCoefficients(s, c), None), invSqrt)[i]
      == SampleDot(s.Modes()[i], LinCombTo(s.Modes(), Nums(c), s.NPoint(), s.nMode))
           .Scale(NormFactor(s.Modes()[i], s.NPoint(), invSqrt))
  {
    assert Shape(WithCoefficients(s, c), None) == LinCombTo(s.Modes(), Nums(c), s.NPoint(), s.nMode);
  }

  /** Mode `i`'s coefficient for a unit-norm mode: ⟨m_i, Σ c_j m_j⟩ = c_i,
      scaled by the normaliser `f` (equal to `g`). */
  lemma UnitProjectOne(ms: seq<seq<real>>, c: seq<real>, n: nat, i: nat, f: real, g: real)
    requires forall j :: 0 <= j < |ms| ==> |ms[j]| == n
    requires Orthogonal(ms) && |c| == |ms| && i < |ms|
    requires SumSq(ms[i]) == 1.0 && f == g
    ensures SampleDot(ms[i], LinCombTo(ms, Nums(c), n, |ms|)).Scale(f) == Num(c[i]).Scale(g)
  {
    DotSelf(ms[i]);
    OrthogonalRow(ms, i);
    OrthogonalDot(ms, c, n, i);
    UnitScale(SampleDot(ms[i], LinCombTo(ms, Nums(c), n, |ms|)), f, Dot(ms[i], ms[i]), c[i]);
  }

  /** A unit-norm mode's normaliser is `invSqrt(n_point)`. */
  lemma UnitNormFactor(mode: seq<real>, n: nat, invSqrt: real -> real)
    requires SumSq(mode) == 1.0
    ensures NormFactor(mode, n, invSqrt) == invSqrt(n as real)
  {
    assert NormSquare(mode, n) == n as real;
  }

  /** Scaling `x·q` with `q = 1` by `f` scales `x` by `f`. */
  lemma UnitScale(d: Sample, f: real, q: real, x: real)
    requires d == Num(x * q) && q == 1.0
    ensures d.Scale(f) == Num(x).Scale(f)
  {
  }

  /** A segment-local vector scattered into a full grid is exactly what the
      fits read back from that grid. */
  lemma ScatteredIsFitInput(s: Segment, grid: seq<Sample>, v: seq<Sample>)
    requires s.Valid() && s.MaskFits() && |grid| == GridSize && |v| == s.NPoint()
    ensures FitInput(s, MaskedReplace(s.mask, grid, v)) == Ok(v)
  {
    ReplaceThenGather(s.mask, grid, v);
  }

  /** Round trip through the grid: reconstruct with coefficients `c`, write
      the shape into any full grid, fit by least squares: `c` comes back. */
  lemma LeastSquareOutRecovers(s: Segment, c: seq<real>, grid: seq<Sample>)
    requires s.Valid() && s.MaskFits() && |c| == s.nMode && LeftInverse(s) && |grid| == GridSize
    ensures LeastSquareOut(s, MaskedReplace(s.mask, grid, Shape(WithCoefficients(s, c), None))) == Ok(Nums(c))
  {
    var w := Shape(WithCoefficients(s, c), None);
    ScatteredIsFitInput(s, grid, w);
    LeastSquareInvertsShape(s, c);
  }

  /** The same round trip for the projection on orthogonal, normalised modes. */
  lemma ProjectOutRecovers(s: Segment, c: seq<real>, grid: seq<Sample>, invSqrt: real -> real)
    requires s.Valid() && s.MaskFits() && |c| == s.nMode && |grid| == GridSize
    requires Orthogonal(s.Modes()) && Normalised(s.Modes(), s.NPoint(), invSqrt)
    ensures ProjectOut(s, MaskedReplace(s.mask, grid, Shape(WithCoefficients(s, c), None)), invSqrt) == Ok(Nums(c))
  {
    var w := Shape(WithCoefficients(s, c), None);
    ScatteredIsFitInput(s, grid, w);
    ProjectInvertsShape(s, c, invSqrt);
  }
}

=== FILE: masking.dfy ===
/** Gather and scatter of grid samples through a boolean pupil mask
    (`Segment::masked`, `masked_replace`, `masked_sub`). Every operation
    walks the mask and the data together and stops at the shorter one, as
    `zip` does; the scatters also stop when the values to write run out. */
module Masking {
  import opened Samples

  /** Number of `true` entries (`n_in_mask`). */
  function CountTrue(bs: seq<bool>): (r: nat)
    ensures r <= |bs|
  {
    if |bs| == 0 then 0 else (if bs[0] then 1 else 0) + CountTrue(bs[1..])
  }

  /** Number of selected positions before `i`: the place that position `i`
      takes in the gathered vector. */
  function Rank(mask: seq<bool>, i: nat): nat
    requires i <= |mask|
  {
    CountTrue(mask[..i])
  }

  /** Position `i` is selected; positions past the end of the mask never are. */
  predicate Selects(mask: seq<bool>, i: nat) {
    i < |mask| && mask[i]
  }

  lemma RankStep(mask: seq<bool>)
    ensures forall i :: 0 < i <= |mask| ==>
      Rank(mask, i) == (if mask[0] then 1 else 0) + Rank(mask[1..], i - 1)
  {
    forall i | 0 < i <= |mask|
      ensures Rank(mask, i) == (if mask[0] then 1 else 0) + Rank(mask[1..], i - 1)
    {
      assert mask[..i][1..] == mask[1..][..i - 1];
    }
  }

  /** The samples of `data` under the mask, in mask order (`masked`). */
  function Masked<T>(mask: seq<bool>, data: seq<T>): (r: seq<T>)
    ensures |r| == Rank(mask, Min(|mask|, |data|))
    ensures forall i :: 0 <= i < |data| && Selects(mask, i) ==>
      Rank(mask, i) < |r| && r[Rank(mask, i)] == data[i]
  {
    if |mask| == 0 || |data| == 0 then []
    else
      RankStep(mask);
      (if mask[0] then [data[0]] else []) + Masked(mask[1..], data[1..])
  }

  /** The scatter shared by `masked_replace` and `masked_sub`: the k-th
      selected position of `base` becomes `f(base, vals[k])` while `vals` lasts. */
  function Scatter<T, U>(mask: seq<bool>, base: seq<T>, vals: seq<U>, f: (T, U) -> T): (r: seq<T>)
    ensures |r| == |base|
    ensures forall i :: 0 <= i < |base| ==>
      r[i] == if Selects(mask, i) && Rank(mask, i) < |vals| then f(base[i], vals[Rank(mask, i)]) else base[i]
    decreases |base|
  {
    if |mask| == 0 || |base| == 0 || |vals| == 0 then base
    else
      RankStep(mask);
      if mask[0] then [f(base[0], vals[0])] + Scatter(mask[1..], base[1..], vals[1..], f)
      else [base[0]] + Scatter(mask[1..], base[1..], vals, f)
  }

  /** `masked_replace`: writes `vals` into the selected positions of `base`. */
  function MaskedReplace<T>(mask: seq<bool>, base: seq<T>, vals: seq<T>): (r: seq<T>)
    ensures |r| == |base|
    ensures forall i :: 0 <= i < |base| && !Selects(mask, i) ==> r[i] == base[i]
    ensures forall i :: 0 <= i < |base| && Selects(mask, i) ==>
      r[i] == if Rank(mask, i) < |vals| then vals[Rank(mask, i)] else base[i]
  {
    Scatter(mask, base, vals, (o: T, n: T) => n)
  }

  /** `masked_sub`: subtracts `vals` from the selected positions of `base`. */
  function MaskedSub(mask: seq<bool>, base: seq<Sample>, vals: seq<Sample>): (r: seq<Sample>)
    ensures |r| == |base|
    ensures forall i :: 0 <= i < |base| && !Selects(mask, i) ==> r[i] == base[i]
    ensures forall i :: 0 <= i < |base| && Selects(mask, i) ==>
      r[i] == if Rank(mask, i) < |vals| then base[i].Minus(vals[Rank(mask, i)]) else base[i]
  {
    Scatter(mask, base, vals, (o: Sample, n: Sample) => o.Minus(n))
  }

  /** Element-wise combination of two vectors of equal length. */
  function ZipWith<T, U>(xs: seq<T>, ys: seq<U>, f: (T, U) -> T): (r: seq<T>)
    requires |xs| == |ys|
    ensures |r| == |xs|
    ensures forall j :: 0 <= j < |xs| ==> r[j] == f(xs[j], ys[j])
  {
    seq(|xs|, j requires 0 <= j < |xs| => f(xs[j], ys[j]))
  }

  /** Gathering after a scatter sees exactly the scattered values. */
  lemma {:induction false} GatherScatter<T, U>(mask: seq<bool>, base: seq<T>, vals: seq<U>, f: (T, U) -> T)
    requires |vals| == |Masked(mask, base)|
    ensures Masked(mask, Scatter(mask, base, vals, f)) == ZipWith(Masked(mask, base), vals, f)
    decreases |base|
  {
    if |mask| == 0 || |base| == 0 || |vals| == 0 {
    } else if mask[0] {
      GatherScatter(mask[1..], base[1..], vals[1..], f);
      assert Scatter(mask, base, vals, f)[1..] == Scatter(mask[1..], base[1..], vals[1..], f);
    } else {
      GatherScatter(mask[1..], base[1..], vals, f);
      assert Scatter(mask, base, vals, f)[1..] == Scatter(mask[1..], base[1..], vals, f);
    }
  }

  /** Round trip of `masked_replace` and `masked`: the gathered samples of
      the updated grid are the written values. */
  lemma ReplaceThenGather<T>(mask: seq<bool>, base: seq<T>, vals: seq<T>)
    requires |vals| == |Masked(mask, base)|
    ensures Masked(mask, MaskedReplace(mask, base, vals)) == vals
  {
    GatherScatter(mask, base, vals, (o: T, n: T) => n);
  }

  /** `masked_sub` then `masked`: the gathered samples drop by `vals`. */
  lemma SubThenGather(mask: seq<bool>, base: seq<Sample>, vals: seq<Sample>)
    requires |vals| == |Masked(mask, base)|
    ensures var g := Masked(mask, MaskedSub(mask, base, vals));
      |g| == |vals| && forall k :: 0 <= k < |vals| ==> g[k] == Masked(mask, base)[k].Minus(vals[k])
  {
    GatherScatter(mask, base, vals, (o: Sample, n: Sample) => o.Minus(n));
  }

  /** The other round trip: writing back what was gathered changes nothing. */
  lemma {:induction false} GatherThenReplace<T>(mask: seq<bool>, base: seq<T>)
    ensures MaskedReplace(mask, base, Masked(mask, base)) == base
    decreases |base|
  {
    if |mask| == 0 || |base| == 0 {
    } else {
      GatherThenReplace(mask[1..], base[1..]);
    }
  }

  /** With a full-length grid the gathered vector has one entry per `true` mask entry. */
  lemma MaskedLength<T>(mask: seq<bool>, data: seq<T>)
    requires |data| >= |mask|
    ensures |Masked(mask, data)| == CountTrue(mask)
  {
    assert mask[..|mask|] == mask;
  }
}

=== FILE: opd.dfy ===
/** The dome-seeing optical path difference map (`OPD` in src/opd.rs) and
    its NaN-aware statistics. NaN marks samples outside the exit pupil; every
    statistic reads only the other samples. */
module Opds {
  import opened Samples
  import opened Masking

  /** A field on the pupil grid with its stored extrema. `map`, `max` and
      `min` are the three fields. */
  datatype Opd = Opd(data: seq<Sample>, max: Sample, min: Sample)

  /** Which samples are numbers */
  function NumMask(data: seq<Sample>): (r: seq<bool>)
    ensures |r| == |data|
    ensures forall i :: 0 <= i < |data| ==> r[i] == data[i].Num?
  {
    seq(|data|, i requires 0 <= i < |data| => data[i].Num?)
  }

  /** `no_nan_opd`: the values of the non-NaN samples, in their order */
  function NoNan(data: seq<Sample>): (r: seq<real>)
    ensures |r| <= |data|
  {
    if |data| == 0 then []
    else (if data[0].Num? then [data[0].v] else []) + NoNan(data[1..])
  }

  /** Exactly the non-NaN samples, in order: the sample at `i` lands at the
      number of non-NaN samples before it, and there are no other values. */
  lemma {:induction false} NoNanPositions(data: seq<Sample>)
    ensures |NoNan(data)| == Rank(NumMask(data), |data|)
    ensures forall i :: 0 <= i < |data| && data[i].Num? ==>
      Rank(NumMask(data), i) < |NoNan(data)| && NoNan(data)[Rank(NumMask(data), i)] == data[i].v
    decreases |data|
  {
    if |data| > 0 {
      var m := NumMask(data);
      RankStep(m);
      assert m[1..] == NumMask(data[1..]);
      NoNanPositions(data[1..]);
      assert m[..|data|] == m;
      assert NumMask(data[1..])[..|data| - 1] == NumMask(data[1..]);
    }
  }

  /** The filtered list is empty exactly when every sample is NaN. */
  lemma {:induction false} NoNanEmpty(data: seq<Sample>)
    ensures |NoNan(data)| == 0 <==> forall i :: 0 <= i < |data| ==> data[i].NaN?
    decreases |data|
  {
    if |data| > 0 {
      NoNanEmpty(data[1..]);
      assert forall i :: 0 < i < |data| ==> data[i] == data[1..][i - 1];
    }
  }

  /** NaN samples contribute nothing: filtering distributes over concatenation. */
  lemma {:induction false} NoNanAppend(a: seq<Sample>, b: seq<Sample>)
    ensures NoNan(a + b) == NoNan(a) + NoNan(b)
    decreases |a|
  {
    if |a| == 0 {
      assert a + b == b;
    } else {
      var ab := a + b;
      var head := if a[0].Num? then [a[0].v] else [];
      NoNanAppend(a[1..], b);
      assert ab[0] == a[0];
      assert ab[1..] == a[1..] + b;
      assert NoNan(ab) == head + NoNan(a[1..] + b);
      assert NoNan(a) == head + NoNan(a[1..]);
    }
  }

  /** A NaN sample anywhere can be dropped without changing the filtered values. */
  lemma DropNaN(a: seq<Sample>, b: seq<Sample>)
    ensures NoNan(a + [NaN] + b) == NoNan(a + b)
  {
    NoNanAppend(a + [NaN], b);
    NoNanAppend(a, [NaN]);
    NoNanAppend(a, b);
    assert NoNan([NaN]) == [];
  }

  /** A NaN-free field is its own filtered value list. */
  lemma {:induction false} NoNanOfNums(xs: seq<real>)
    ensures NoNan(Nums(xs)) == xs
    decreases |xs|
  {
    if |xs| > 0 {
      NoNanOfNums(xs[1..]);
      assert Nums(xs)[1..] == Nums(xs[1..]);
    }
  }

  /** `mean`: Σ/N over the non-NaN samples; NaN (0/0) when there are none. */
  function Mean(o: Opd): (r: Sample)
    ensures r.NaN? <==> forall i :: 0 <= i < |o.data| ==> o.data[i].NaN?
    ensures r.Num? ==> r.v * |NoNan(o.data)| as real == Sum(NoNan(o.data))
  {
    var xs := NoNan(o.data);
    NoNanEmpty(o.data);
    Quotient(Sum(xs), |xs|)
  }

  /** Every value shifted by `-c` */
  function Shift(xs: seq<real>, c: real): (r: seq<real>)
    ensures |r| == |xs|
    ensures forall i :: 0 <= i < |xs| ==> r[i] == xs[i] - c
  {
    seq(|xs|, i requires 0 <= i < |xs| => xs[i] - c)
  }

  /** `var`: the population variance Σ(x-μ)²/N of the non-NaN samples.
      With no samples the mean is NaN but the sum is empty, so the result is
      0/0, which is NaN. */
  function Var(o: Opd): (r: Sample)
    ensures r.NaN? <==> Mean(o).NaN?
    ensures r.Num? ==> r.v >= 0.0
    ensures r.Num? ==> r.v * |NoNan(o.data)| as real == SumSq(Shift(NoNan(o.data), Mean(o).v))
  {
    var xs := NoNan(o.data);
    var mu := if |xs| == 0 then 0.0 else Mean(o).v;
    var ss := SumSq(Shift(xs, mu));
    Quotient(if |xs| == 0 then 0.0 else ss, |xs|)
  }

  /** `std`, with `sqrt` supplied */
  function Std(o: Opd, sqrt: real -> real): (r: Sample)
    ensures r.NaN? <==> Var(o).NaN?
    ensures r.Num? ==> r.v == sqrt(Var(o).v)
  {
    match Var(o)
    case NaN => NaN
    case Num(v) => Num(sqrt(v))
  }

  /** `rms`: sqrt(Σx²) over the non-NaN samples, not divided by their
      count, so it is a number even when every sample is NaN. */
  function Rms(o: Opd, sqrt: real -> real): (r: Sample)
    ensures r.Num?
  {
    Num(sqrt(SumSq(NoNan(o.data))))
  }

  /** The values a flat field surrounded by NaN samples leaves after filtering */
  lemma FlatValues(a: seq<Sample>, n: nat, k: real, b: seq<Sample>)
    requires forall i :: 0 <= i < |a| ==> a[i].NaN?
    requires forall i :: 0 <= i < |b| ==> b[i].NaN?
    ensures NoNan(a + Nums(Flat(n, k)) + b) == Flat(n, k)
  {
    var f := Nums(Flat(n, k));
    NoNanEmpty(a);
    NoNanEmpty(b);
    var na, nb := NoNan(a), NoNan(b);
    assert na == [] && nb == [];
    NoNanOfNums(Flat(n, k));
    NoNanAppend(a, f);
    assert NoNan(a + f) == Flat(n, k);
    NoNanAppend(a + f, b);
  }

  /** A flat (piston-only) field has its level as mean and no variance,
      whatever NaN samples surround it. */
  lemma FlatField(a: seq<Sample>, n: nat, k: real, b: seq<Sample>, hi: Sample, lo: Sample)
    requires n > 0
    requires forall i :: 0 <= i < |a| ==> a[i].NaN?
    requires forall i :: 0 <= i < |b| ==> b[i].NaN?
    ensures Mean(Opd(a + Nums(Flat(n, k)) + b, hi, lo)) == Num(k)
    ensures Var(Opd(a + Nums(Flat(n, k)) + b, hi, lo)) == Num(0.0)
  {
    var o := Opd(a + Nums(Flat(n, k)) + b, hi, lo);
    FlatValues(a, n, k, b);
    FlatMean(o, n, k);
    FlatVar(o, n, k);
  }

  lemma FlatVar(o: Opd, n: nat, k: real)
    requires n > 0 && NoNan(o.data) == Flat(n, k) && Mean(o) == Num(k)
    ensures Var(o) == Num(0.0)
  {
    assert Shift(Flat(n, k), k) == Flat(n, 0.0);
    SumSqFlat(n, 0.0);
  }

  lemma FlatMean(o: Opd, n: nat, k: real)
    requires n > 0 && NoNan(o.data) == Flat(n, k)
    ensures Mean(o) == Num(k)
  {
    SumFlat(n, k);
    Cancel(n as real, k);
  }

  /** The root-sum-square of a flat field is sqrt(n·k²), whatever NaN
      samples surround it: it is not divided by the count. */
  lemma FlatRms(a: seq<Sample>, n: nat, k: real, b: seq<Sample>, hi: Sample, lo: Sample, sqrt: real -> real)
    requires forall i :: 0 <= i < |a| ==> a[i].NaN?
    requires forall i :: 0 <= i < |b| ==> b[i].NaN?
    ensures Rms(Opd(a + Nums(Flat(n, k)) + b, hi, lo), sqrt) == Num(sqrt(n as real * (k * k)))
  {
    FlatValues(a, n, k, b);
    SumSqFlat(n, k);
  }

  /** NaN samples do not move the statistics. */
  lemma StatisticsIgnoreNaN(a: seq<Sample>, b: seq<Sample>, hi: Sample, lo: Sample, sqrt: real -> real)
    ensures var o := Opd(a + [NaN] + b, hi, lo); var p := Opd(a + b, hi, lo);
      Mean(o) == Mean(p) && Var(o) == Var(p) && Rms(o, sqrt) == Rms(p, sqrt)
  {
    DropNaN(a, b);
  }
}

=== FILE: painting.dfy ===
/** Scattering a stack of layers into a grid, one after the other: the fold
    behind `mirror_shape` (each layer replaces what it covers) and behind
    `mirror_shape_sub` (each layer subtracts from what it covers). A layer
    is a mask and the samples it writes under that mask, in mask order. */
module Painting {
  import opened Wrappers
  import opened Samples
  import opened Masking

  datatype Layer = Layer(mask: seq<bool>, vals: seq<Sample>)

  /** Layer `l` writes position `i`: its mask selects `i` and it still has
      a sample for it. */
  predicate Writes(l: Layer, i: nat) {
    Selects(l.mask, i) && Rank(l.mask, i) < |l.vals|
  }

  /** The sample layer `l` writes at position `i` */
  function ValueAt(l: Layer, i: nat): Sample
    requires Writes(l, i)
  {
    l.vals[Rank(l.mask, i)]
  }

  /** The last of the first `k` layers that writes position `i` */
  function LastWriter(ls: seq<Layer>, i: nat, k: nat): (r: Option<nat>)
    requires k <= |ls|
    ensures r.None? <==> forall j :: 0 <= j < k ==> !Writes(ls[j], i)
    ensures r.Some? ==> r.value < k && Writes(ls[r.value], i)
    ensures r.Some? ==> forall j :: r.value < j < k ==> !Writes(ls[j], i)
  {
    if k == 0 then None
    else if Writes(ls[k - 1], i) then Some(k - 1)
    else LastWriter(ls, i, k - 1)
  }

  /** A layer that writes `i` and is followed by no other writer of `i` is
      the last writer. */
  lemma LastWriterIs(ls: seq<Layer>, i: nat, k: nat)
    requires k < |ls| && Writes(ls[k], i)
    requires forall j :: k < j < |ls| ==> !Writes(ls[j], i)
    ensures LastWriter(ls, i, |ls|) == Some(k)
  {
    var w := LastWriter(ls, i, |ls|);
    assert w.Some?;
  }

  /** What a position shows after painting: `x` when no layer wrote it,
      else the sample of the layer `w` that wrote it last. */
  function Painted(ls: seq<Layer>, x: Sample, i: nat, w: Option<nat>): Sample
    requires w.Some? ==> w.value < |ls| && Writes(ls[w.value], i)
  {
    match w
    case None => x
    case Some(j) => ValueAt(ls[j], i)
  }

  /** `base` with the first `k` layers written over it, in order */
  function PaintTo(ls: seq<Layer>, base: seq<Sample>, k: nat): (r: seq<Sample>)
    requires k <= |ls|
    ensures |r| == |base|
    ensures forall i :: 0 <= i < |base| ==> r[i] == Painted(ls, base[i], i, LastWriter(ls, i, k))
  {
    if k == 0 then base
    else
      var prev := PaintTo(ls, base, k - 1);
      forall i | 0 <= i < |base| {
        PaintAt(ls, base, k, prev, i);
      }
      MaskedReplace(ls[k - 1].mask, prev, ls[k - 1].vals)
  }

  /** Painting layer `k - 1` at one position */
  lemma PaintAt(ls: seq<Layer>, base: seq<Sample>, k: nat, prev: seq<Sample>, i: nat)
    requires 0 < k <= |ls| && i < |prev| == |base|
    requires prev[i] == Painted(ls, base[i], i, LastWriter(ls, i, k - 1))
    ensures MaskedReplace(ls[k - 1].mask, prev, ls[k - 1].vals)[i] == Painted(ls, base[i], i, LastWriter(ls, i, k))
  {
    var l := ls[k - 1];
    if Writes(l, i) {
      assert LastWriter(ls, i, k) == Some(k - 1);
    } else {
      assert LastWriter(ls, i, k) == LastWriter(ls, i, k - 1);
    }
  }

  /** Position `i` of `x` after the first `k` layers subtracted their
      samples: each layer writing `i` takes its sample off, in order. */
  function Deducted(ls: seq<Layer>, x: Sample, i: nat, k: nat): Sample
    requires k <= |ls|
  {
    if k == 0 then x
    else
      var y := Deducted(ls, x, i, k - 1);
      if Writes(ls[k - 1], i) then y.Minus(ValueAt(ls[k - 1], i)) else y
  }

  /** `base` after the first `k` layers subtracted their samples, in order */
  function SubTo(ls: seq<Layer>, base: seq<Sample>, k: nat): (r: seq<Sample>)
    requires k <= |ls|
    ensures |r| == |base|
    ensures forall i :: 0 <= i < |base| ==> r[i] == Deducted(ls, base[i], i, k)
  {
    if k == 0 then base
    else MaskedSub(ls[k - 1].mask, SubTo(ls, base, k - 1), ls[k - 1].vals)
  }

  /** NaN stays NaN under subtraction. */
  lemma {:induction false} DeductedNaN(ls: seq<Layer>, i: nat, k: nat)
    requires k <= |ls|
    ensures Deducted(ls, NaN, i, k) == NaN
  {
    if k > 0 {
      DeductedNaN(ls, i, k - 1);
    }
  }

  /** With one writer `w`, the deduction takes off its sample once. */
  lemma {:induction false} DeductedSingle(ls: seq<Layer>, x: Sample, i: nat, k: nat, w: nat)
    requires k <= |ls| && w < |ls| && Writes(ls[w], i)
    requires forall j :: 0 <= j < k && j != w ==> !Writes(ls[j], i)
    ensures Deducted(ls, x, i, k) == if w < k then x.Minus(ValueAt(ls[w], i)) else x
  {
    if k > 0 {
      DeductedSingle(ls, x, i, k - 1, w);
    }
  }

  /** With no writer the deduction changes nothing. */
  lemma {:induction false} DeductedNone(ls: seq<Layer>, x: Sample, i: nat, k: nat)
    requires k <= |ls|
    requires forall j :: 0 <= j < k ==> !Writes(ls[j], i)
    ensures Deducted(ls, x, i, k) == x
  {
    if k > 0 {
      DeductedNone(ls, x, i, k - 1);
    }
  }

  /** Where at most one layer writes, subtracting the layers is subtracting
      what painting them shows. */
  lemma SubtractPainted(ls: seq<Layer>, x: Sample, i: nat, w: nat)
    requires w < |ls| && Writes(ls[w], i)
    requires forall j :: 0 <= j < |ls| && j != w ==> !Writes(ls[j], i)
    ensures Deducted(ls, x, i, |ls|) == x.Minus(Painted(ls, NaN, i, LastWriter(ls, i, |ls|)))
  {
    DeductedSingle(ls, x, i, |ls|, w);
    LastWriterIs(ls, i, w);
  }
}

=== FILE: records.dfy ===
/** Statistics over a batch of processed OPD files: the `OpdRecord` row and
    the `OpdStats` averages over a list of them (src/lib.rs). Every average
    divides a column total by the number of records, so an empty batch
    gives NaN (0/0) everywhere. */
module Records {
  import opened Samples
  import opened Chunking

  /** Segments per record (`vec![0f64; 7]`) */
  const RecordSegments: nat := 7
  /** Modes per segment kept by the modal statistics (`n_mode`) */
  const ModeCount: nat := 500
  /** Width of the modal statistics (`7 * n_mode`) */
  const ModalWidth: nat := 3500

  /** One processed OPD file: its variance, the per-segment sums of squares,
      the modal coefficients (segment after segment) and the area ratios. */
  datatype OpdRecord = OpdRecord(
    file: string,
    variance: real,
    segmentSumSquare: seq<real>,
    modalCoefficients: seq<real>,
    ratios: seq<real>)

  // ----- column totals -----

  /** What row `row` contributes to column `i`: nothing past its end */
  function Entry(row: seq<real>, i: nat): real {
    if i < |row| then row[i] else 0.0
  }

  /** Column `i` of a list of rows */
  function Column(rows: seq<seq<real>>, i: nat): (r: seq<real>)
    ensures |r| == |rows|
    ensures forall q :: 0 <= q < |rows| ==> r[q] == Entry(rows[q], i)
  {
    seq(|rows|, q requires 0 <= q < |rows| => Entry(rows[q], i))
  }

  /** One step of the fold, `a.iter_mut().zip(row).for_each(|(a, s)| *a += s)`:
      the accumulator keeps its width, a short row only adds to a prefix and
      a long row is cut off. */
  function AddInto(acc: seq<real>, row: seq<real>): (r: seq<real>)
    ensures |r| == |acc|
    ensures forall i :: 0 <= i < |acc| ==> r[i] == acc[i] + Entry(row, i)
  {
    seq(|acc|, i requires 0 <= i < |acc| => if i < |row| then acc[i] + row[i] else acc[i])
  }

  /** The fold of every row into `width` zeros, first row first */
  function Totals(rows: seq<seq<real>>, width: nat): (r: seq<real>)
    ensures |r| == width
    decreases |rows|
  {
    if |rows| == 0 then Flat(width, 0.0)
    else AddInto(Totals(rows[..|rows| - 1], width), rows[|rows| - 1])
  }

  /** Entry `i` of the fold is the sum of column `i`. */
  lemma {:induction false} TotalsAreColumnSums(rows: seq<seq<real>>, width: nat, i: nat)
    requires i < width
    ensures Totals(rows, width)[i] == Sum(Column(rows, i))
    decreases |rows|
  {
    if |rows| > 0 {
      var init := rows[..|rows| - 1];
      TotalsAreColumnSums(init, width, i);
      assert Column(rows, i)[..|rows| - 1] == Column(init, i);
    }
  }

  /** Every column total divided by the number of rows (`.map(|x| x / n)`) */
  function Means(rows: seq<seq<real>>, width: nat): (r: seq<Sample>)
    ensures |r| == width
    ensures forall i :: 0 <= i < width ==> (r[i].NaN? <==> |rows| == 0)
    ensures forall i :: 0 <= i < width ==> r[i] == Quotient(Sum(Column(rows, i)), |rows|)
  {
    var t := Totals(rows, width);
    assert forall i :: 0 <= i < width ==> t[i] == Sum(Column(rows, i)) by {
      forall i | 0 <= i < width ensures t[i] == Sum(Column(rows, i)) {
        TotalsAreColumnSums(rows, width, i);
      }
    }
    seq(width, i requires 0 <= i < width => Quotient(t[i], |rows|))
  }

  /** A sum of non-negative terms is non-negative. */
  lemma {:induction false} SumNonNegative(xs: seq<real>)
    requires forall q :: 0 <= q < |xs| ==> xs[q] >= 0.0
    ensures Sum(xs) >= 0.0
  {
    if |xs| > 0 {
      SumNonNegative(xs[..|xs| - 1]);
    }
  }

  /** No row holds a negative entry. */
  predicate NonNegativeRows(rows: seq<seq<real>>) {
    forall q, j :: 0 <= q < |rows| && 0 <= j < |rows[q]| ==> rows[q][j] >= 0.0
  }

  /** Averages of non-negative rows are non-negative. */
  lemma MeansNonNegative(rows: seq<seq<real>>, width: nat)
    requires NonNegativeRows(rows)
    ensures forall i :: 0 <= i < width && Means(rows, width)[i].Num? ==> Means(rows, width)[i].v >= 0.0
  {
    forall i | 0 <= i < width && Means(rows, width)[i].Num?
      ensures Means(rows, width)[i].v >= 0.0
    {
      SumNonNegative(Column(rows, i));
      DivideNonNegative(Sum(Column(rows, i)), |rows| as real);
    }
  }

  lemma DivideNonNegative(x: real, n: real)
    requires x >= 0.0 && n > 0.0
    ensures x / n >= 0.0
  {
  }

  /** When every row has the same value `c` in column `i`, so does the average. */
  lemma MeansOfConstantColumn(rows: seq<seq<real>>, width: nat, i: nat, c: real)
    requires i < width && |rows| > 0
    requires forall q :: 0 <= q < |rows| ==> Entry(rows[q], i) == c
    ensures Means(rows, width)[i] == Num(c)
  {
    assert Column(rows, i) == Flat(|rows|, c);
    SumFlat(|rows|, c);
    Cancel(|rows| as real, c);
    var n := |rows| as real;
    assert Sum(Column(rows, i)) == n * c;
    assert Means(rows, width)[i] == Num((n * c) / n);
  }

  // ----- the OpdStats averages -----

  function Variances(rs: seq<OpdRecord>): (r: seq<real>)
    ensures |r| == |rs|
    ensures forall q :: 0 <= q < |rs| ==> r[q] == rs[q].variance
  {
    seq(|rs|, q requires 0 <= q < |rs| => rs[q].variance)
  }

  /** `mean_var`: the average variance of the batch */
  function MeanVar(rs: seq<OpdRecord>): (r: Sample)
    ensures r.NaN? <==> |rs| == 0
    ensures r.Num? ==> r.v * |rs| as real == Sum(Variances(rs))
  {
    Quotient(Sum(Variances(rs)), |rs|)
  }

  /** A batch of equal variances averages to that variance. */
  lemma MeanVarOfEqual(rs: seq<OpdRecord>, v: real)
    requires |rs| > 0
    requires forall q :: 0 <= q < |rs| ==> rs[q].variance == v
    ensures MeanVar(rs) == Num(v)
  {
    assert Variances(rs) == Flat(|rs|, v);
    SumFlat(|rs|, v);
    Cancel(|rs| as real, v);
    var n := |rs| as real;
    assert Sum(Variances(rs)) == n * v;
    assert MeanVar(rs) == Num((n * v) / n);
  }

  /** `mean_std`: the square root of `mean_var`, with `sqrt` supplied;
      the square root of NaN is NaN. */
  function MeanStd(rs: seq<OpdRecord>, sqrt: real -> real): (r: Sample)
    ensures r.NaN? <==> |rs| == 0
    ensures r.Num? ==> r.v == sqrt(MeanVar(rs).v)
  {
    SampleSqrt(MeanVar(rs), sqrt)
  }

  function SampleSqrt(x: Sample, sqrt: real -> real): Sample {
    match x
    case NaN => NaN
    case Num(v) => Num(sqrt(v))
  }

  /** `.map(|x| x.sqrt())` over a vector of averages (`mean_segment_rss`,
      `mean_segment_residual_rss`) */
  function Roots(xs: seq<Sample>, sqrt: real -> real): (r: seq<Sample>)
    ensures |r| == |xs|
    ensures forall i :: 0 <= i < |xs| ==> (r[i].NaN? <==> xs[i].NaN?)
    ensures forall i :: 0 <= i < |xs| && xs[i].Num? ==> r[i].v == sqrt(xs[i].v)
  {
    seq(|xs|, i requires 0 <= i < |xs| => SampleSqrt(xs[i], sqrt))
  }

  function SegmentRows(rs: seq<OpdRecord>): (r: seq<seq<real>>)
    ensures |r| == |rs|
    ensures forall q :: 0 <= q < |rs| ==> r[q] == rs[q].segmentSumSquare
  {
    seq(|rs|, q requires 0 <= q < |rs| => rs[q].segmentSumSquare)
  }

  /** `mean_segment_sum_square`: the per-segment average over the batch,
      seven entries whatever the records hold. */
  function MeanSegmentSumSquare(rs: seq<OpdRecord>): (r: seq<Sample>)
    ensures |r| == RecordSegments
    ensures forall i :: 0 <= i < RecordSegments ==>
      r[i] == Quotient(Sum(Column(SegmentRows(rs), i)), |rs|)
  {
    Means(SegmentRows(rs), RecordSegments)
  }

  /** `b * b` for every coefficient */
  function Squares(b: seq<real>): (r: seq<real>)
    ensures |r| == |b|
    ensures forall j :: 0 <= j < |b| ==> r[j] == b[j] * b[j] && r[j] >= 0.0
  {
    seq(|b|, j requires 0 <= j < |b| => b[j] * b[j])
  }

  function SquareRows(rs: seq<OpdRecord>): (r: seq<seq<real>>)
    ensures |r| == |rs|
    ensures forall q :: 0 <= q < |rs| ==> r[q] == Squares(rs[q].modalCoefficients)
    ensures NonNegativeRows(r)
  {
    seq(|rs|, q requires 0 <= q < |rs| => Squares(rs[q].modalCoefficients))
  }

  /** `mean_modal_coefs_square`: the average squared modal coefficient, for
      the 3500 leading coefficients; never negative. */
  function MeanModalCoefsSquare(rs: seq<OpdRecord>): (r: seq<Sample>)
    ensures |r| == ModalWidth
    ensures forall i :: 0 <= i < ModalWidth ==>
      r[i] == Quotient(Sum(Column(SquareRows(rs), i)), |rs|)
    ensures forall i :: 0 <= i < ModalWidth && r[i].Num? ==> r[i].v >= 0.0
  {
    MeansNonNegative(SquareRows(rs), ModalWidth);
    Means(SquareRows(rs), ModalWidth)
  }

  // ----- residual sums of squares -----

  lemma {:induction false} SumSqCons(x: real, ys: seq<real>)
    ensures SumSq([x] + ys) == x * x + SumSq(ys)
    decreases |ys|
  {
    if |ys| > 0 {
      var init := ys[..|ys| - 1];
      SumSqCons(x, init);
      assert ([x] + ys)[..|ys|] == [x] + init;
    }
  }

  /** The in-place running sum of squares,
      `b2.iter_mut().fold(0.0, |a, x| { *x += a; *x })` over `b2 = b²`,
      carried on from `acc`. */
  function RunningSums(b: seq<real>, acc: real): (r: seq<real>)
    ensures |r| == |b|
    decreases |b|
  {
    if |b| == 0 then []
    else
      var a := acc + b[0] * b[0];
      [a] + RunningSums(b[1..], a)
  }

  /** Entry `k` of the running sum is the sum of the first `k + 1` squares. */
  lemma {:induction false} RunningSumsArePrefixSums(b: seq<real>, acc: real)
    ensures forall k :: 0 <= k < |b| ==> RunningSums(b, acc)[k] == acc + SumSq(b[..k + 1])
    decreases |b|
  {
    if |b| > 0 {
      var a := acc + b[0] * b[0];
      RunningSumsArePrefixSums(b[1..], a);
      forall k | 0 <= k < |b|
        ensures RunningSums(b, acc)[k] == acc + SumSq(b[..k + 1])
      {
        assert b[..k + 1] == [b[0]] + b[1..][..k];
        SumSqCons(b[0], b[1..][..k]);
        if k == 0 {
          assert b[1..][..k] == [];
        }
      }
    }
  }

  function Abs(x: real): (r: real)
    ensures r >= 0.0 && (r == x || r == -x)
  {
    if x < 0.0 then -x else x
  }

  /** For one segment: `|sss - Σ_{j≤k} b_j²|` for each prefix of its coefficients */
  function Residuals(b: seq<real>, sss: real): (r: seq<real>)
    ensures |r| == |b|
    ensures forall k :: 0 <= k < |b| ==> r[k] == Abs(sss - SumSq(b[..k + 1]))
  {
    var run := RunningSums(b, 0.0);
    RunningSumsArePrefixSums(b, 0.0);
    seq(|b|, k requires 0 <= k < |b| => Abs(sss - run[k]))
  }

  /** `chunks(n_mode)` zipped with the segment sums of squares: the pairing
      stops at the shorter of the two */
  function ResidualPieces(pieces: seq<seq<real>>, sss: seq<real>): (r: seq<seq<real>>)
    ensures |r| == Min(|pieces|, |sss|)
    ensures forall s :: 0 <= s < |r| ==> r[s] == Residuals(pieces[s], sss[s])
    decreases |pieces|
  {
    if |pieces| == 0 || |sss| == 0 then []
    else [Residuals(pieces[0], sss[0])] + ResidualPieces(pieces[1..], sss[1..])
  }

  /** One record's residual row: the residuals of every segment, concatenated */
  function ResidualRow(rec: OpdRecord): seq<real> {
    Flatten(ResidualPieces(Chunks(rec.modalCoefficients, ModeCount), rec.segmentSumSquare))
  }

  /** For a record with 3500 coefficients and seven segment sums, entry
      `s·500 + k` of its residual row is segment `s`'s sum of squares minus
      its first `k + 1` squared coefficients, in absolute value. */
  lemma ResidualRowAt(rec: OpdRecord, s: nat, k: nat)
    requires |rec.modalCoefficients| == ModalWidth && |rec.segmentSumSquare| == RecordSegments
    requires s < RecordSegments && k < ModeCount
    ensures |ResidualRow(rec)| == ModalWidth
    ensures s * ModeCount + k + 1 <= ModalWidth
    ensures ResidualRow(rec)[s * ModeCount + k] ==
      Abs(rec.segmentSumSquare[s] - SumSq(rec.modalCoefficients[s * ModeCount .. s * ModeCount + k + 1]))
  {
    var coefs := rec.modalCoefficients;
    var chunks := Chunks(coefs, ModeCount);
    ChunksExact(coefs, ModeCount, RecordSegments);
    var pieces := ResidualPieces(chunks, rec.segmentSumSquare);
    FlattenLength(pieces, ModeCount);
    FlattenAt(pieces, ModeCount, s, k);
    ChunkAt(coefs, ModeCount, s);
    assert chunks[s][..k + 1] == coefs[s * ModeCount .. s * ModeCount + k + 1];
  }

  /** Every residual is non-negative. */
  lemma ResidualRowNonNegative(rec: OpdRecord)
    ensures forall j :: 0 <= j < |ResidualRow(rec)| ==> ResidualRow(rec)[j] >= 0.0
  {
    var pieces := ResidualPieces(Chunks(rec.modalCoefficients, ModeCount), rec.segmentSumSquare);
    FlattenNonNegative(pieces);
  }

  lemma {:induction false} FlattenNonNegative(xss: seq<seq<real>>)
    requires NonNegativeRows(xss)
    ensures forall j :: 0 <= j < |Flatten(xss)| ==> Flatten(xss)[j] >= 0.0
  {
    if |xss| > 0 {
      FlattenNonNegative(xss[1..]);
    }
  }

  function ResidualRows(rs: seq<OpdRecord>): (r: seq<seq<real>>)
    ensures |r| == |rs|
    ensures forall q :: 0 <= q < |rs| ==> r[q] == ResidualRow(rs[q])
    ensures NonNegativeRows(r)
  {
    forall q | 0 <= q < |rs| {
      ResidualRowNonNegative(rs[q]);
    }
    seq(|rs|, q requires 0 <= q < |rs| => ResidualRow(rs[q]))
  }

  /** `mean_segment_residual_sum_square`: the average residual for each
      (segment, number of modes) pair; never negative. */
  function MeanSegmentResidualSumSquare(rs: seq<OpdRecord>): (r: seq<Sample>)
    ensures |r| == ModalWidth
    ensures forall i :: 0 <= i < ModalWidth ==>
      r[i] == Quotient(Sum(Column(ResidualRows(rs), i)), |rs|)
    ensures forall i :: 0 <= i < ModalWidth && r[i].Num? ==> r[i].v >= 0.0
  {
    MeansNonNegative(ResidualRows(rs), ModalWidth);
    Means(ResidualRows(rs), ModalWidth)
  }
}

=== FILE: samples.dfy ===
/** Scalars of the model: a grid sample is a finite real or the NaN sentinel,
    and the sums the engine folds are exact real sums. */
module Samples {

  /** One f64 sample. `NaN` marks "undefined at this sample"; arithmetic
      propagates it as IEEE-754 does. Rounding is not modelled. */
  datatype Sample = Num(v: real) | NaN {

    function Plus(o: Sample): Sample {
      if Num? && o.Num? then Num(v + o.v) else NaN
    }

    function Minus(o: Sample): Sample {
      if Num? && o.Num? then Num(v - o.v) else NaN
    }

    /** `k * this` for a finite factor `k` */
    function Scale(k: real): Sample {
      if Num? then Num(k * v) else NaN
    }
  }

  function Min(a: nat, b: nat): nat {
    if a <= b then a else b
  }

  /** Lifts a vector of finite reals to samples. */
  function Nums(xs: seq<real>): (r: seq<Sample>)
    ensures |r| == |xs|
    ensures forall i :: 0 <= i < |xs| ==> r[i] == Num(xs[i])
  {
    seq(|xs|, i requires 0 <= i < |xs| => Num(xs[i]))
  }

  /** `n` zero samples (`vec![0f64; n]`) */
  function Zeros(n: nat): (r: seq<Sample>)
    ensures |r| == n
    ensures forall i :: 0 <= i < n ==> r[i] == Num(0.0)
  {
    seq(n, _ => Num(0.0))
  }

  /** Division of a total by a count. A zero count only ever comes with an
      empty, hence zero, total, and IEEE-754 gives 0/0 = NaN. */
  function Quotient(x: real, d: nat): (r: Sample)
    requires d == 0 ==> x == 0.0
    ensures r.NaN? <==> d == 0
    ensures r.Num? ==> r.v * d as real == x
    ensures r.Num? && x >= 0.0 ==> r.v >= 0.0
  {
    if d == 0 then NaN else Num(x / d as real)
  }

  /** Σ xs, folded left to right */
  function Sum(xs: seq<real>): real {
    if |xs| == 0 then 0.0 else Sum(xs[..|xs| - 1]) + xs[|xs| - 1]
  }

  /** Σ x², folded left to right; never negative */
  function SumSq(xs: seq<real>): (r: real)
    ensures r >= 0.0
  {
    if |xs| == 0 then 0.0
    else
      var x := xs[|xs| - 1];
      assert x * x >= 0.0;
      SumSq(xs[..|xs| - 1]) + x * x
  }

  /** Σ_{j<k} xs[j]·ys[j] */
  function DotTo(xs: seq<real>, ys: seq<real>, k: nat): real
    requires k <= |xs| && k <= |ys|
  {
    if k == 0 then 0.0 else DotTo(xs, ys, k - 1) + xs[k - 1] * ys[k - 1]
  }

  /** Inner product over the common prefix: `zip` stops at the shorter side. */
  function Dot(xs: seq<real>, ys: seq<real>): real {
    DotTo(xs, ys, Min(|xs|, |ys|))
  }

  /** Σ_{j<k} m[j]·xs[j] with NaN propagation, folded as
      `fold(0, |a, (x, y)| a + x * y)` */
  function SampleDotTo(m: seq<real>, xs: seq<Sample>, k: nat): Sample
    requires k <= |m| && k <= |xs|
  {
    if k == 0 then Num(0.0) else SampleDotTo(m, xs, k - 1).Plus(xs[k - 1].Scale(m[k - 1]))
  }

  /** Inner product of a real vector with a sample vector over their common prefix. */
  function SampleDot(m: seq<real>, xs: seq<Sample>): Sample {
    SampleDotTo(m, xs, Min(|m|, |xs|))
  }

  /** A partial inner product is NaN exactly when one of the samples it reads is NaN. */
  lemma {:induction false} SampleDotToNaN(m: seq<real>, xs: seq<Sample>, k: nat)
    requires k <= |m| && k <= |xs|
    ensures SampleDotTo(m, xs, k).NaN? <==> exists j :: 0 <= j < k && xs[j].NaN?
  {
    if k > 0 {
      SampleDotToNaN(m, xs, k - 1);
    }
  }

  /** NaN propagation of the inner product: it is NaN exactly when a sample
      within the common prefix is NaN, and never silently zero. */
  lemma SampleDotNaN(m: seq<real>, xs: seq<Sample>)
    ensures SampleDot(m, xs).NaN? <==> exists j :: 0 <= j < Min(|m|, |xs|) && xs[j].NaN?
  {
    SampleDotToNaN(m, xs, Min(|m|, |xs|));
  }

  lemma {:induction false} SampleDotToNums(m: seq<real>, ys: seq<real>, k: nat)
    requires k <= |m| && k <= |ys|
    ensures SampleDotTo(m, Nums(ys), k) == Num(DotTo(m, ys, k))
  {
    if k > 0 {
      SampleDotToNums(m, ys, k - 1);
    }
  }

  /** On NaN-free samples the sample inner product is the real one. */
  lemma SampleDotNums(m: seq<real>, ys: seq<real>)
    ensures SampleDot(m, Nums(ys)) == Num(Dot(m, ys))
  {
    SampleDotToNums(m, ys, Min(|m|, |ys|));
  }

  lemma {:induction false} DotToSelf(xs: seq<real>, k: nat)
    requires k <= |xs|
    ensures DotTo(xs, xs, k) == SumSq(xs[..k])
  {
    if k > 0 {
      DotToSelf(xs, k - 1);
      assert xs[..k][..k - 1] == xs[..k - 1];
    }
  }

  /** The inner product of a vector with itself is its sum of squares. */
  lemma DotSelf(xs: seq<real>)
    ensures Dot(xs, xs) == SumSq(xs)
  {
    DotToSelf(xs, |xs|);
    assert xs[..|xs|] == xs;
  }

  /** `n` copies of `k` */
  function Flat(n: nat, k: real): (r: seq<real>)
    ensures |r| == n
    ensures forall i :: 0 <= i < n ==> r[i] == k
  {
    seq(n, _ => k)
  }

  lemma {:induction false} SumFlat(n: nat, k: real)
    ensures Sum(Flat(n, k)) == n as real * k
  {
    if n > 0 {
      SumFlat(n - 1, k);
      assert Flat(n, k)[..n - 1] == Flat(n - 1, k);
      CountStep(k, (n - 1) as real, n as real);
    }
  }

  lemma CountStep(k: real, m: real, m': real)
    requires m' == m + 1.0
    ensures m * k + k == m' * k
  {
  }

  /** `n` copies of `k` square-sum to n·k². */
  lemma {:induction false} SumSqFlat(n: nat, k: real)
    ensures SumSq(Flat(n, k)) == n as real * (k * k)
  {
    if n > 0 {
      SumSqFlat(n - 1, k);
      assert Flat(n, k)[..n - 1] == Flat(n - 1, k);
      CountStep(k * k, (n - 1) as real, n as real);
    }
  }

  lemma Cancel(n: real, k: real)
    requires n > 0.0
    ensures n * k / n == k
  {
  }
}

=== FILE: segment.dfy ===
/** One mirror segment (`Segment` in src/asm.rs): its flattened modal basis,
    pupil mask, pseudo-inverse and last fitted coefficients, with the
    fits and the modal reconstruction. */
module Segments {
  import opened Wrappers
  import opened Samples
  import opened Masking
  import opened Chunking

  /** Side of the square exit-pupil grid */
  const GridSide: nat := 512
  /** Number of samples of a full-grid field */
  const GridSize: nat := GridSide * GridSide

  type Pos = n: nat | n > 0 witness 1

  /** A segment. `modes` holds `nMode` consecutive blocks of `NPoint()`
      samples (the column-major mode matrix); `modesPinv` is its
      pseudo-inverse, `nMode` rows of `NPoint()` entries, computed at
      construction by code that is not part of this model. */
  datatype Segment = Segment(
    modes: seq<real>,
    nMode: Pos,
    mask: seq<bool>,
    coefficients: seq<Sample>,
    modesPinv: seq<seq<real>>)
  {
    /** `n_point`: samples per mode */
    function NPoint(): nat {
      |modes| / nMode
    }

    /** `n_in_mask`: samples the pupil mask selects */
    function NInMask(): (r: nat)
      ensures r <= |mask|
    {
      CountTrue(mask)
    }

    /** What construction guarantees and the fits rely on: the mode matrix
        fills `modes` exactly, has at least one row, and the pseudo-inverse
        has the transposed shape. */
    predicate Valid() {
      && |modes| == nMode * NPoint()
      && NPoint() > 0
      && |modesPinv| == nMode
      && forall i :: 0 <= i < nMode ==> |modesPinv[i]| == NPoint()
    }

    /** `modes.chunks(n_point)`: one vector of `NPoint()` samples per mode */
    function Modes(): (r: seq<seq<real>>)
      requires Valid()
      ensures |r| == nMode
      ensures forall i :: 0 <= i < nMode ==> |r[i]| == NPoint()
    {
      var n := NPoint();
      ChunksExact(modes, n, nMode);
      Chunks(modes, n)
    }

    /** A full grid gathered through this mask has one sample per mode sample. */
    predicate MaskFits() {
      Rank(mask, Min(|mask|, GridSize)) == NPoint()
    }
  }

  /** Mode `i` of a valid segment is the i-th block of `NPoint()` samples. */
  lemma ModesExact(s: Segment, i: nat)
    requires s.Valid() && i < s.nMode
    ensures 0 <= i * s.NPoint() <= (i + 1) * s.NPoint() <= |s.modes|
    ensures s.Modes()[i] == s.modes[i * s.NPoint() .. (i + 1) * s.NPoint()]
  {
    var n := s.NPoint();
    var k: nat := s.nMode;
    assert |s.modes| == k * n;
    MulBound(i, n - 1, n, k);
    MulPred(i + 1, n);
    ChunkAt(s.modes, n, i);
  }

  /** `n_point` is the number of samples per mode: `|modes| / n_mode`, exact
      when the segment is valid. */
  lemma NPointCounts(s: Segment)
    ensures s.NPoint() * s.nMode <= |s.modes| < (s.NPoint() + 1) * s.nMode
    ensures s.Valid() ==> |s.modes| == s.nMode * s.NPoint()
  {
  }

  /** `n_in_mask` is the number of samples a gather of a field at least as
      long as the mask keeps. */
  lemma NInMaskCounts(s: Segment, data: seq<Sample>)
    requires |data| >= |s.mask|
    ensures |Masked(s.mask, data)| == s.NInMask()
  {
    MaskedLength(s.mask, data);
  }

  /** `Segment::new` / `From<KarhunenLoeve>`: a segment with no coefficients
      yet; the pseudo-inverse is supplied. */
  function NewSegment(nMode: Pos, modes: seq<real>, mask: seq<bool>, pinv: seq<seq<real>>): (s: Segment)
    requires |modes| > 0 && |modes| % nMode == 0
    requires |pinv| == nMode
    requires forall i :: 0 <= i < nMode ==> |pinv[i]| == |modes| / nMode
    ensures s.Valid()
    ensures s.modes == modes && s.nMode == nMode && s.mask == mask && s.modesPinv == pinv
    ensures s.coefficients == []
  {
    Segment(modes, nMode, mask, [], pinv)
  }

  /** The input-length dispatch shared by the four fits: a full-grid field
      is gathered through the mask, a segment-local vector is used as it is,
      and any other length is a `Projection` error. The full-grid case is
      tested first. */
  function FitInput(s: Segment, opd: seq<Sample>): (r: Result<seq<Sample>>)
    ensures r.Err? <==> |opd| != GridSize && |opd| != s.NPoint()
    ensures r.Err? ==> r.error == Projection
    ensures |opd| == GridSize ==> r == Ok(Masked(s.mask, opd))
    ensures |opd| != GridSize && |opd| == s.NPoint() ==> r == Ok(opd)
  {
    if |opd| == GridSize then Ok(Masked(s.mask, opd))
    else if |opd| == s.NPoint() then Ok(opd)
    else Err(Projection)
  }

  /** `Σm²·n_point`, the square of the projection's normaliser */
  function NormSquare(mode: seq<real>, n: nat): real {
    SumSq(mode) * n as real
  }

  /** The projection normalisation `1/sqrt(Σm²·n_point)`; `invSqrt` stands
      for `sqrt().recip()`. */
  function NormFactor(mode: seq<real>, n: nat, invSqrt: real -> real): real {
    invSqrt(NormSquare(mode, n))
  }

  /** One coefficient per mode: the normalised inner product of the mode
      with the samples. */
  function ProjectCoefficients(s: Segment, xs: seq<Sample>, invSqrt: real -> real): (r: seq<Sample>)
    requires s.Valid()
    ensures |r| == s.nMode
    ensures forall i :: 0 <= i < s.nMode ==>
      r[i] == SampleDot(s.Modes()[i], xs).Scale(NormFactor(s.Modes()[i], s.NPoint(), invSqrt))
  {
    var ms := s.Modes();
    seq(|ms|, i requires 0 <= i < |ms| => SampleDot(ms[i], xs).Scale(NormFactor(ms[i], s.NPoint(), invSqrt)))
  }

  /** `project_out`: the projection coefficients, or the length error. */
  function ProjectOut(s: Segment, opd: seq<Sample>, invSqrt: real -> real): (r: Result<seq<Sample>>)
    requires s.Valid()
    ensures r.Err? <==> FitInput(s, opd).Err?
    ensures r.Err? ==> r.error == Projection
    ensures r.Ok? ==> |r.value| == s.nMode
    ensures r.Ok? ==> forall i :: 0 <= i < s.nMode ==>
      r.value[i] == SampleDot(s.Modes()[i], FitInput(s, opd).value).Scale(NormFactor(s.Modes()[i], s.NPoint(), invSqrt))
  {
    match FitInput(s, opd)
    case Ok(xs) => Ok(ProjectCoefficients(s, xs, invSqrt))
    case Err(e) => Err(e)
  }

  /** `project`: stores the projection coefficients. On a length error the
      segment is returned unchanged, since the error is raised before the
      assignment. Nothing but the coefficients ever changes. */
  function Project(s: Segment, opd: seq<Sample>, invSqrt: real -> real): (r: (Segment, Outcome))
    requires s.Valid()
    ensures r.1.Fail? <==> ProjectOut(s, opd, invSqrt).Err?
    ensures r.1.Fail? ==> r.1.error == Projection && r.0 == s
    ensures r.1.Pass? ==> r.0 == s.(coefficients := ProjectOut(s, opd, invSqrt).value)
    ensures r.0.Valid()
  {
    match FitInput(s, opd)
    case Ok(xs) => (s.(coefficients := ProjectCoefficients(s, xs, invSqrt)), Pass)
    case Err(e) => (s, Fail(e))
  }

  /** `modes_pinv · samples` */
  function LeastSquareCoefficients(s: Segment, xs: seq<Sample>): (r: seq<Sample>)
    requires s.Valid() && |xs| == s.NPoint()
    ensures |r| == s.nMode
    ensures forall i :: 0 <= i < s.nMode ==> r[i] == SampleDot(s.modesPinv[i], xs)
  {
    seq(s.nMode, i requires 0 <= i < s.nMode => SampleDot(s.modesPinv[i], xs))
  }

  /** `least_square_out`: the least-squares coefficients, or the length
      error. A full grid whose gathered length differs from `n_point` makes
      the matrix product panic, so callers must not pass one. */
  function LeastSquareOut(s: Segment, opd: seq<Sample>): (r: Result<seq<Sample>>)
    requires s.Valid()
    requires |opd| == GridSize ==> s.MaskFits()
    ensures r.Err? <==> FitInput(s, opd).Err?
    ensures r.Err? ==> r.error == Projection
    ensures r.Ok? ==> |r.value| == s.nMode
    ensures r.Ok? ==> forall i :: 0 <= i < s.nMode ==>
      r.value[i] == SampleDot(s.modesPinv[i], FitInput(s, opd).value)
  {
    match FitInput(s, opd)
    case Ok(xs) => Ok(LeastSquareCoefficients(s, xs))
    case Err(e) => Err(e)
  }

  /** `least_square`: stores the least-squares coefficients; unchanged on error. */
  function LeastSquare(s: Segment, opd: seq<Sample>): (r: (Segment, Outcome))
    requires s.Valid()
    requires |opd| == GridSize ==> s.MaskFits()
    ensures r.1.Fail? <==> LeastSquareOut(s, opd).Err?
    ensures r.1.Fail? ==> r.1.error == Projection && r.0 == s
    ensures r.1.Pass? ==> r.0 == s.(coefficients := LeastSquareOut(s, opd).value)
    ensures r.0.Valid()
  {
    match FitInput(s, opd)
    case Ok(xs) => (s.(coefficients := LeastSquareCoefficients(s, xs)), Pass)
    case Err(e) => (s, Fail(e))
  }

  /** `w += m * c` over the common prefix of `w` and `m` */
  function AddScaled(w: seq<Sample>, m: seq<real>, c: Sample): (r: seq<Sample>)
    ensures |r| == |w|
  {
    seq(|w|, j requires 0 <= j < |w| => if j < |m| then w[j].Plus(c.Scale(m[j])) else w[j])
  }

  /** Σ_{k<K} cs[k]·ms[k] on `n` samples, folded from zero in mode order */
  function LinCombTo(ms: seq<seq<real>>, cs: seq<Sample>, n: nat, k: nat): (r: seq<Sample>)
    requires k <= |ms| && k <= |cs|
    ensures |r| == n
  {
    if k == 0 then Zeros(n) else AddScaled(LinCombTo(ms, cs, n, k - 1), ms[k - 1], cs[k - 1])
  }

  /** The linear combination over the pairs `zip` forms */
  function LinComb(ms: seq<seq<real>>, cs: seq<Sample>, n: nat): (r: seq<Sample>)
    ensures |r| == n
  {
    LinCombTo(ms, cs, n, Min(|ms|, |cs|))
  }

  /** Every index names an existing mode and an existing coefficient;
      `shape` panics otherwise. */
  predicate IndicesIn(s: Segment, idx: seq<nat>) {
    forall j :: 0 <= j < |idx| ==> idx[j] < s.nMode && idx[j] < |s.coefficients|
  }

  /** `shape`: the segment-local reconstruction Σ coefficients[i]·mode_i,
      over every mode (`None`) or over the listed modes. */
  function Shape(s: Segment, idx: Option<seq<nat>>): (r: seq<Sample>)
    requires s.Valid()
    requires idx.Some? ==> IndicesIn(s, idx.value)
    ensures |r| == s.NPoint()
  {
    var ms := s.Modes();
    match idx
    case None => LinComb(ms, s.coefficients, s.NPoint())
    case Some(ix) =>
      LinComb(seq(|ix|, j requires 0 <= j < |ix| => ms[ix[j]]),
              seq(|ix|, j requires 0 <= j < |ix| => s.coefficients[ix[j]]),
              s.NPoint())
  }
}

=== FILE: wrappers.dfy ===
/** Error and optional-value datatypes shared by the whole model. */
module Wrappers {

  /** The recoverable failures of the fitting engine (`GlaoError`). The
      file, archive and pseudo-inverse variants belong to I/O and numerics
      that are not modelled. */
  datatype GlaoError =
    | Projection  // the input length is neither the full grid nor the segment's point count
    | Bin2Asm     // a segment id outside 1..7

  /** `Result<T>`: a value or a `GlaoError`. */
  datatype Result<+T> = Ok(value: T) | Err(error: GlaoError)

  /** What a state-changing call returns besides the new state. */
  datatype Outcome = Pass | Fail(error: GlaoError)

  /** An optional value; `None` selects every mode in a reconstruction. */
  datatype Option<+T> = None | Some(value: T)
}
